=== FILE: README.md ===
# mitmproxy certificate store and HTTP/3 event translator, in Dafny

This project models two sequential parts of mitmproxy.

**The certificate store** (`mitmproxy/certs.py`) is an in-memory cache. It maps host names to certificate entries:

- custom certificates are registered under their common name (CN), their subjectAltNames (SANs) and any extra names;
- lookups try the requested name, then its wildcard forms, then the SANs and their wildcard forms, then the bare `*`;
- on a miss, a leaf certificate is issued from the default CA and filed under the `(commonname, sans)` pair;
- issued entries are kept in a FIFO queue of at most 100 entries. Evicting an entry removes every key bound to it.

The model also covers:

- the subject and criticality rule of `dummy_cert`;
- the defaults and file names of `create_store`;
- how `from_files` picks the CA and the certificate chain.

**The HTTP/3 layer** (`mitmproxy/proxy/layers/http/_http3.py`) translates in both directions between mitmproxy's HTTP events and the stream operations of an HTTP/3 connection:

- aborted exchanges become stream resets, using the error codes of section 8.1 of RFC 9114, or become an error page;
- received data, headers, trailers and resets become HTTP events;
- a closed connection fails every open stream once, after which the layer is inert;
- on the client side, stream ids are renumbered through two tables that stay inverse to each other.

Certificates are abstract records: subject attributes, issuer, SAN extension, CA flag and serial. The aioquic connection underneath is abstract too. It has:

- a list of open streams;
- a set of streams that have sent headers;
- a log of the operations it was asked to perform.

Everything aioquic decides arrives with the event as a parameter:

- which frames it decoded;
- whether it refused an operation with `FrameUnexpected`;
- which stream id it offers next.

Randomness (certificate serial numbers) is a parameter as well.

Files:

- `wrappers.dfy`: `Option`, `Result`.
- `labels.dfy`: `str.split(".")` and `".".join`, with round-trip lemmas.
- `certificates.dfy`: the certificate record, `dummy_cert` and `create_ca`.
- `cert_store.dfy`: the store, expiry, registration, wildcard keys and lookup.
- `store_files.dfy`: `create_store` and `from_files`.
- `h3_errors.dfy`: error-code mappings.
- `h3_connection.dfy`: `Http3Connection`.
- `h3_client.dfy`: `Http3Client`.

## Model

| member | source | states |
|---|---|---|
| Labels.Split | mitmproxy/certs.py:551 | `split(".")` returns one more part than the string has dots, and no part contains a dot |
| Labels.JoinSplit | mitmproxy/certs.py:551-554 | joining the parts of a split with `.` gives back the original name |
| Labels.SplitJoin | mitmproxy/certs.py:554 | splitting a `.`-join of dot-free labels gives back exactly those labels |
| Labels.Join | mitmproxy/certs.py:554 | the join starts with the first part, and a dot follows it when there are more parts |
| Labels.JoinAt | mitmproxy/certs.py:554 | a join of labels is the join of the first `i` labels, a dot, and the join of the rest |
| CertStore.AsteriskForms | mitmproxy/certs.py:545-555 | for a name with k labels there are exactly k forms; the first is the name itself; form i is `*.` followed by labels i.. |
| CertStore.WildcardFormLabels | mitmproxy/certs.py:553-554 | a wildcard form covers exactly labels i.. of the name. The name is labels ..i followed by the form minus its `*`. The form is never the bare `*` |
| CertStore.AsteriskFormsLabels | mitmproxy/certs.py:545-555 | every form after the first is a label-suffix wildcard of the name, and none of them is the bare `*` |
| CertStore.AsteriskFormsOf | mitmproxy/certs.py:556-559 | a DNS name gets exactly its `asterisk_forms`: one form per label, the name first, then the wildcard forms. Any other general name gets a single form, its value string |
| Certificates.CommonName | mitmproxy/certs.py:160-165 | a certificate has a CN iff its subject has a common-name attribute, and the CN is the value of the first one |
| Certificates.Organization | mitmproxy/certs.py:167-172 | a certificate has an organization iff its subject has an organization attribute, and it is the value of the first one |
| Certificates.AltNames | mitmproxy/certs.py:174-184 | the SAN list is the SAN extension's names, and empty when the certificate has no SAN extension |
| Certificates.DummyCert | mitmproxy/certs.py:299-314 | the CN is present iff a common name was given and is shorter than 64 characters. The organization is present iff given. The SAN extension lists the SANs and is critical exactly when the subject has no CN. The issuer is the CA's subject |
| Certificates.CreateCa | mitmproxy/certs.py:207-220 | the CA certificate carries the given CN and organization, is self-signed and has the CA flag set |
| CertStore.NewStore | mitmproxy/certs.py:359-372 | a new store is empty and valid; its default chain is the chain file's certificates, or the CA alone without a chain file |
| CertStore.Expire | mitmproxy/certs.py:374-378 | the new entry is queued last and the cap holds afterwards. Below the cap nothing else changes. At the cap the oldest entry is dropped together with exactly the keys bound to it, and all other bindings keep their entries |
| CertStore.ExpireKeepsNewest | mitmproxy/certs.py:374-378 | after any run of insertions the queue holds exactly the newest `min(n, 100)` entries in insertion order (FIFO, not LRU) |
| CertStore.BindAll | mitmproxy/certs.py:537-542 | after binding a key list, each listed key maps to the entry and every other key keeps its old binding |
| CertStore.RegisteredKeys | mitmproxy/certs.py:532-542 | a key is registered for an entry iff it is the entry's non-empty CN, the value string of one of its SANs, or one of the extra names |
| CertStore.AddCert | mitmproxy/certs.py:532-542 | the entry is bound under its non-empty CN, every SAN value and every extra name, overwriting earlier bindings. No other key changes and the queue is untouched |
| CertStore.SanKeys | mitmproxy/certs.py:580-581 | every SAN candidate is a name key |
| CertStore.SanKeysMembers | mitmproxy/certs.py:580-581 | the SAN candidates are exactly the asterisk forms of the SANs |
| CertStore.SanKeysSplit | mitmproxy/certs.py:580-581 | SAN j's forms appear in order, after the candidates of every earlier SAN and before those of every later one |
| CertStore.PotentialKeys | mitmproxy/certs.py:577-583 | the candidates are the CN's asterisk forms in order (none for a missing or empty CN), then the SAN candidates in order, then `*`, and last the `(commonname, sans)` key. Every candidate but the last is a name key |
| CertStore.FirstPresent | mitmproxy/certs.py:585 | finds the first candidate bound in the store, or reports that none is bound |
| CertStore.Issue | mitmproxy/certs.py:588-602 | a miss issues `dummy_cert` from the default CA with the default key and chain. The entry is filed under the `(commonname, sans)` key and queued last. Every other key keeps its entry, except that the keys bound to an evicted oldest entry disappear. The new entry stays filed unless it is itself the evicted one. At the cap, no remaining key is bound to the evicted entry |
| CertStore.GetCert | mitmproxy/certs.py:577-604 | a hit returns the entry of the first bound candidate and leaves the store, queue included, unchanged. A miss returns a freshly issued certificate, filed and queued as for `Issue`. The queue cap is kept |
| CertStore.GetCertRemembers | mitmproxy/certs.py:585-604 | right after a miss, the same request returns the entry just issued and changes nothing |
| CertStore.ExactCommonNameWins | mitmproxy/certs.py:578-587 | an exact binding of the non-empty CN is returned before any wildcard, SAN or generated key |
| CertStore.CommonNameFormFound | mitmproxy/certs.py:577-587 | the CN's asterisk forms are tried in order: the first bound one is the entry returned, and the store does not change |
| CertStore.CommonNameFormBeatsSans | mitmproxy/certs.py:578-587 | once any asterisk form of the CN is bound, the SANs make no difference to the lookup |
| CertStore.SanFormFound | mitmproxy/certs.py:580-587 | with no CN form bound, the SANs are tried in order and each SAN's forms in order: the first bound form is the entry returned, whatever later SANs are bound to. The lookup as written returns it too when that form is non-empty; an empty form (from `DNSName("")`) is the case in the Findings row |
| CertStore.BoundCandidateIsHit | mitmproxy/certs.py:585-587 | any bound candidate makes the lookup a hit that leaves the store unchanged; as written, this needs nothing bound under the empty name |
| CertStore.WildcardPreventsIssue | mitmproxy/certs.py:582-587 | when `*` is bound, a lookup never issues a certificate or changes the store. The as-written lookup does the same when nothing is bound under the empty name |
| CertStore.SanBindingIsFound | mitmproxy/certs.py:580-587 | when any SAN's value is bound, a lookup is a hit and changes nothing. The as-written lookup does the same when nothing is bound under the empty name |
| CertStore.Truthy | mitmproxy/certs.py:586 | a lookup key is truthy iff it is not the empty name |
| CertStore.GetCertAsWritten | mitmproxy/certs.py:585-588 | the lookup as written agrees with the corrected one whenever the first bound key is not the empty name. When nothing is bound, or the first bound key is the empty name, it issues a new certificate exactly as `Issue` does |
| CertStore.EmptyNameKeyIgnored | mitmproxy/certs.py:585-587 | with an entry under the empty name and the SAN `DNSName("")`, the as-written lookup issues a new certificate on each call, while the corrected lookup returns the bound entry |
| StoreFiles.OrDefault | mitmproxy/certs.py:459-460 | a given non-empty value is kept, and a missing or empty one falls back; the result is empty only when the fallback is |
| StoreFiles.StoreFileList | mitmproxy/certs.py:469-506 | the six files are `-ca.pem` (key and CA, PEM), `-ca.p12` (key and CA, PKCS#12), `-ca-cert.pem` and `-ca-cert.cer` (CA, PEM), `-ca-cert.p12` (CA, PKCS#12) and `-dhparam.pem` (DH parameters), each after the basename, with pairwise distinct names |
| StoreFiles.CaFileName | mitmproxy/certs.py:415 | the CA file `from_store` checks for and loads is the first file `create_store` writes, the key-plus-certificate PEM |
| StoreFiles.DhParamFileName | mitmproxy/certs.py:416 | the DH parameter file `from_store` loads is the last file `create_store` writes, holding the DH parameters |
| StoreFiles.CreateStore | mitmproxy/certs.py:459-464 | organization and CN fall back to the basename when missing or empty. The CA carries them and is self-signed |
| StoreFiles.CerMirrorsPem | mitmproxy/certs.py:489-493 | `{basename}-ca-cert.cer` holds the same PEM certificate as `{basename}-ca-cert.pem` |
| StoreFiles.FromStoreFindsCreatedFiles | mitmproxy/certs.py:414-419 | the CA file and DH-parameter file that `from_store` opens are the key-plus-certificate PEM and the DH parameters written by `create_store` |
| StoreFiles.OnboardingServesCreatedFiles | mitmproxy/addons/onboardingapp/__init__.py:51-52 | `{basename}-ca-cert.{pem,cer,p12}` served by the onboarding app are files `create_store` wrote, with the PEM or PKCS#12 certificate |
| StoreFiles.FromFiles | mitmproxy/certs.py:421-432 | loading fails iff the CA file cannot be read, the private key does not load, the DH parameter file does not open, or the CA file holds no certificate; the first of these in that order is the error. Otherwise the CA is the file's first certificate, and the file is the chain file iff it holds more than one. The default chain is always the file's full list |
| H3Errors.ToH3 | mitmproxy/proxy/layers/http/_http3.py:105-128 | the outgoing mapping is total. It yields H3_REQUEST_CANCELLED exactly for cancel / client-disconnected / passthrough-close, H3_VERSION_FALLBACK exactly for HTTP/1.1-required, and H3_INTERNAL_ERROR for every other code |
| H3Errors.FromH3 | mitmproxy/proxy/layers/http/_http3.py:144-152 | an incoming reset code maps to `Cancel`, to `Http11Required` or to the receiving side's default code, recognising the two named codes; every other code maps to the default |
| H3Errors.RoundTrip | mitmproxy/proxy/layers/http/_http3.py:105-152 | a reset read back gives `Cancel` for every cancellation, the downgrade for itself, and the receiver's default otherwise |
| H3Errors.RoundTripIdentity | mitmproxy/proxy/layers/http/_http3.py:105-152 | exactly `Cancel` and `Http11Required` survive the outgoing-then-incoming round trip for every receiver default |
| Http3Connection.Decimal | mitmproxy/proxy/layers/http/_http3.py:94 | `%d` writes decimal digits with no leading zero, and a single digit exactly for statuses below ten |
| Http3Connection.DecimalRoundTrip | mitmproxy/proxy/layers/http/_http3.py:94 | the `:status` value written for a status reads back as that status |
| Http3Connection.ErrorHeaders | mitmproxy/proxy/layers/http/_http3.py:93-97 | an error response has three header fields: `:status`, which reads back as the status, then `server` with the version banner, then `content-type: text/html` |
| Http3Connection.AnswersWithPage | mitmproxy/proxy/layers/http/_http3.py:86-90 | only a protocol error with an HTTP status on a stream without sent headers is answered with a page, and a request-side error never is |
| Http3Connection.PlannedOps | mitmproxy/proxy/layers/http/_http3.py:67-128 | every outgoing HTTP event becomes one or two operations, all on its own stream, and never closes the connection. The stream is reset exactly when the event is a protocol error not answered with an error page, and then the reset is the only operation. An error page takes two operations. Data becomes one data send that does not end the stream. Headers become one headers send that ends the stream as the event says. Trailers become one trailers send, and end-of-message becomes one end-stream |
| Http3Connection.HandleHttp | mitmproxy/proxy/layers/http/_http3.py:65-138 | the operations run in order. If one is refused, the earlier ones stay done and only a log command is emitted, without transmit. Otherwise all run and a transmit follows |
| Http3Connection.ErrorPageInsteadOfReset | mitmproxy/proxy/layers/http/_http3.py:84-103 | a response-side error that has a status, on a stream without sent headers, sends `:status`, `server` and `content-type: text/html` headers and then the error page with end of stream. It issues no reset |
| Http3Connection.ResetWithMappedCode | mitmproxy/proxy/layers/http/_http3.py:104-128 | every other protocol error resets the stream with the mapped HTTP/3 code and nothing else |
| Http3Connection.DataEvents | mitmproxy/proxy/layers/http/_http3.py:160-166 | a data event is emitted iff the data is non-empty and an end-of-message iff the stream ended. Data comes first, all events are on the same stream, and there is nothing else |
| Http3Connection.HeaderEvents | mitmproxy/proxy/layers/http/_http3.py:175-180 | valid headers give one headers event first (with the end flag), followed by end-of-message iff the stream ended |
| Http3Connection.TrailerEvents | mitmproxy/proxy/layers/http/_http3.py:181-188 | trailers give one trailers event first, followed by end-of-message iff the stream ended |
| Http3Connection.ReceiveOne | mitmproxy/proxy/layers/http/_http3.py:143-195 | each decoded H3 event emits only HTTP events, all on that event's own stream. Received data, valid headers and trailers open the stream and emit exactly their `DataEvents`, `HeaderEvents` or `TrailerEvents`. A push promise closes the connection with H3_GENERAL_PROTOCOL_ERROR and emits nothing |
| Http3Connection.InvalidHeadersCloseConnection | mitmproxy/proxy/layers/http/_http3.py:167-174 | headers that fail to parse close the connection with H3_GENERAL_PROTOCOL_ERROR and emit nothing |
| Http3Connection.StreamClosedReported | mitmproxy/proxy/layers/http/_http3.py:144-159 | a peer reset yields one protocol error on that stream carrying the read-back code, and the stream is no longer open |
| Http3Connection.ReceiveAllConcat | mitmproxy/proxy/layers/http/_http3.py:141-144 | handling `a + b` is handling `a`, then `b` from the state `a` left. The commands are the two runs' commands, concatenated in order |
| Http3Connection.ReceiveAll | mitmproxy/proxy/layers/http/_http3.py:141-196 | handling the decoded events in order emits only HTTP events and keeps the open-stream list free of duplicates. Every emitted event is on the stream of one of the decoded events. No events emit nothing, and one event is handled exactly as by `ReceiveOne` |
| Http3Connection.Step | mitmproxy/proxy/layers/http/_http3.py:60-215 | a step fails only for a start event once done. Once done, every other event leaves the state unchanged and emits nothing. A stream event always ends with a transmit. The open-stream list stays duplicate-free. Before close, a start only transmits. An HTTP event is exactly `HandleHttp` with its refusal position. A stream event yields `ReceiveAll`'s state and commands, followed by one transmit |
| Http3Connection.ConnectionClosedFailsOpenStreams | mitmproxy/proxy/layers/http/_http3.py:199-208 | a closed connection emits exactly one protocol error per open stream. Each carries the reason phrase, or else the error code's name, and the receiving side's default code. Afterwards the layer is done, and the H3 state is unchanged |
| Http3Connection.CloseMessage | mitmproxy/proxy/layers/http/_http3.py:202 | the message is the reason phrase iff that is non-empty, and otherwise names the close code |
| Http3Connection.DoneIsFinal | mitmproxy/proxy/layers/http/_http3.py:199-215 | once done, any run of HTTP, stream and close events emits nothing and changes nothing |
| Http3Client.NewClient | mitmproxy/proxy/layers/http/_http3.py:268-271 | a new client starts with empty, mutually inverse tables |
| Http3Client.Assign | mitmproxy/proxy/layers/http/_http3.py:277-283 | a known external id keeps its internal id and the tables stay unchanged. An unseen one gets the offered id, recorded in both tables. The tables stay inverse when the offered id is unused |
| Http3Client.StaleAllocationBreaksInverse | mitmproxy/proxy/layers/http/_http3.py:278-282 | if the offered id is already in use, the tables stop being inverse |
| Http3Client.Inward | mitmproxy/proxy/layers/http/_http3.py:277-283 | an HTTP event reaches the connection with the internal id and otherwise unchanged; other events pass as they are |
| Http3Client.Untranslate | mitmproxy/proxy/layers/http/_http3.py:285-288 | every emitted HTTP event gets its external stream id and other commands pass unchanged. Translation fails iff some event's stream is unknown |
| Http3Client.ClientStep | mitmproxy/proxy/layers/http/_http3.py:273-288 | only an HTTP event on an unseen external id adds a table entry, which maps it to the offered id; known entries never change. Once done, nothing is translated or emitted. A successful step before close is the connection's `Step` on the event renumbered to the internal id the tables now hold. Its commands are that step's commands mapped back through `theirs`. Before close, a step fails exactly when mapping back meets an internal id missing from `theirs`. Once done, it fails exactly for a start event |
| Http3Client.ClientStepPreservesInverse | mitmproxy/proxy/layers/http/_http3.py:273-288 | the two tables stay mutually inverse across every step |
| Http3Client.StreamEventOnKnownStreamsSucceeds | mitmproxy/proxy/layers/http/_http3.py:285-288 | a stream event whose decoded events are all on streams with an external id succeeds without touching the tables, and leaves the connection in `ReceiveAll`'s state |
| Http3Client.KnownStreamKeepsItsId | mitmproxy/proxy/layers/http/_http3.py:277-283 | an event on a known external id always reaches the connection with the same internal id |
| Http3Client.NewStreamTakesOfferedId | mitmproxy/proxy/layers/http/_http3.py:278-283 | an event on an unseen external id succeeds and reaches the connection under the offered id. Both tables record the pair, and the step's commands pass through unchanged |
| Http3Client.EmittedIdsAreExternal | mitmproxy/proxy/layers/http/_http3.py:285-288 | each emitted HTTP event carries the external id that the tables map to the internal stream it arrived on |
| Http3Client.ClosedConnectionReportsExternalIds | mitmproxy/proxy/layers/http/_http3.py:285-288 | when the connection closes, each open stream is failed under its external id |

## Left out

- Cryptography is not modelled: key generation, signing, public keys, SHA-256 fingerprints, and PEM and PKCS#12 encoding and decoding. Certificates are compared field by field rather than by fingerprint.
- `add_cert_file` is left out. It reads a file, loads and compares keys, and parses the chain. Only the registration it ends with (`add_cert`) is modelled.
- `load_dhparam`'s OpenSSL parsing and `umask_secret` are left out. They are OpenSSL and process-state calls. Whether the CA file can be read, whether the DH parameter file opens, and whether the private key loads with the passphrase are parameters of StoreFiles.FromFiles. A missing DH parameter file is written before it is opened, so only an unreadable one fails.
- `create_store` and `from_store` are modelled only by the file names and the artifact each file holds. Directories, paths and the actual writes are not modelled.
- Validity periods are not modelled: `notbefore`, `notafter`, `has_expired` and the expiry constants depend on the clock.
- `_fix_legacy_sans` is left out: SANs are taken as general names already. Its IDNA and IP parsing is library behaviour.
- `Cert` accessors other than `cn`, `organization`, `altnames` and `is_ca` are left out, as are the state-serialisation methods.
- aioquic's stream-state rules are not modelled. Which operation raises `FrameUnexpected` is a parameter of the event. How stream data decodes into H3 events is also a parameter. The open-stream bookkeeping is an abstraction: a stream opens when headers are sent, or when data, parsed headers or trailers are received on it, and closes when it is reset either way. Half-closed streams are not tracked.
- `transmit()` is a single `Transmit` command.
- The H3 connection's `send_trailers` is in a file that is not part of this model. It sends the trailers as a last block of headers that ends the stream. The model records the call as its own `SendTrailers` operation and does not model its effect on the stream.
- `handle_connection_closed` has no modelled effect on the H3 state.
- The HTTP/2 header formatters and parsers are not modelled. Outgoing headers carry their formatted field list, and received headers carry the parse outcome. Any commands the formatters yield are not modelled, and neither is building requests and responses (including the `time.time()` stamps).
- `ErrorCode.http_status_code()` is in a file that is not part of this model. So are the protocol-error classes' default codes, `error_code_to_str`, `format_error` and the version string. They appear as an event field (`httpStatus`), a configuration value (`receiveDefault`, `serverBanner`) and abstract message and payload constructors.
- Request and response variants of an event share one constructor, except protocol errors, which record which side they are.
- `done`'s `expect` decorator is in a file that is not part of this model. A start event after the connection closed is modelled as a failure. Python's assertion errors for other event types are not modelled, because the model's event type has only the handled kinds.
- Http3Client.Untranslate: an unknown internal stream id fails the whole step. Commands mitmproxy's generator had already yielded before the lookup error are not kept.
- Http3Client.ClientStepPreservesInverse: assumes the id offered by `get_next_available_stream_id` is not already in use. The allocator is aioquic's and is not visible here; StaleAllocationBreaksInverse shows the assumption is needed.
- Http3Client.Inward: `Http3Client._handle_event` overwrites `event.stream_id` in place on the event it was given (mitmproxy/proxy/layers/http/_http3.py:283), so whoever holds that event sees the internal id afterwards. The model has no shared mutable events; Inward builds a renumbered copy.
- CertStore.GetCertRemembers: assumes the newly issued entry is not already in the expiry queue. This is what random serial numbers guarantee in practice.
- `mitmproxy/addons/onboardingapp/__init__.py` is Flask routing and file serving. Only the certificate file names it serves are modelled.

## Findings

| source | as written | input that shows it | evidently intended | confidence | as-written member | corrected member |
|---|---|---|---|---|---|---|
| mitmproxy/certs.py:586 | `if name:` tests the truthiness of the first bound key, so an empty-string key counts as a miss | a store with an entry bound under `""`, e.g. a custom certificate registered under an empty name, and `get_cert(None, [DNSName("")])`: every call issues and queues a new certificate instead of returning the bound entry | `if name is not None:`, so a bound key is always a hit | low; not executed | CertStore.GetCertAsWritten, CertStore.EmptyNameKeyIgnored | CertStore.GetCert |

=== FILE: cert_store.dfy ===
/** The in-memory certificate store (`CertStore`): a map from lookup keys to
    entries plus a FIFO expiry queue of generated entries, capped at
    `StoreCap`. Every operation is a pure step from store to store. */
module CertStore {
  import opened Wrappers
  import opened Labels
  import opened Certificates

  /** Stands for an RSA private key; keys are only passed around. */
  type KeyId = nat

  /** A lookup key: a host name string (custom certificates, CNs, SANs and
      their wildcard forms) or the `(commonname, sans)` pair under which a
      generated certificate is filed. */
  datatype Key = Name(name: string) | Generated(commonName: Option<string>, sans: seq<GeneralName>)

  /** `CertStoreEntry`. Equal fields mean equal entries, as for the frozen
      dataclass. */
  datatype Entry = Entry(cert: Cert, privateKey: KeyId, chainFile: Option<string>, chainCerts: seq<Cert>)

  datatype Store = Store(
    defaultKey: KeyId,
    defaultCa: Cert,
    defaultChainFile: Option<string>,
    defaultChainCerts: seq<Cert>,
    certs: map<Key, Entry>,
    expireQueue: seq<Entry>)

  /** At most this many generated entries are kept. */
  const StoreCap: nat := 100

  /** The store's invariant: the expiry queue respects the cap. */
  predicate Valid(s: Store)
  {
    |s.expireQueue| <= StoreCap
  }

  /** The configuration part of the store is the same in both. */
  predicate SameDefaults(s: Store, r: Store)
  {
    r.defaultKey == s.defaultKey && r.defaultCa == s.defaultCa
    && r.defaultChainFile == s.defaultChainFile && r.defaultChainCerts == s.defaultChainCerts
  }

  /** `CertStore.__init__`. `chainFileCerts` stands for the certificates read
      from the chain file; without a chain file the chain is the CA alone. */
  function NewStore(key: KeyId, ca: Cert, chainFile: Option<string>, chainFileCerts: seq<Cert>): (s: Store)
    ensures Valid(s) && s.certs == map[] && s.expireQueue == []
    ensures s.defaultKey == key && s.defaultCa == ca && s.defaultChainFile == chainFile
    ensures chainFile.None? ==> s.defaultChainCerts == [ca]
    ensures chainFile.Some? ==> s.defaultChainCerts == chainFileCerts
  {
    Store(key, ca, chainFile, if chainFile.Some? then chainFileCerts else [ca], map[], [])
  }

  // ---------------------------------------------------------------------------
  // Expiry queue

  /** `expire`: enqueue `e`; when the queue then exceeds the cap, drop its
      oldest entry and every key bound to that entry. */
  function Expire(s: Store, e: Entry): (r: Store)
    ensures SameDefaults(s, r)
    ensures Valid(s) ==> Valid(r)
    ensures |r.expireQueue| >= 1 && r.expireQueue[|r.expireQueue| - 1] == e
    ensures |s.expireQueue| < StoreCap ==> r.expireQueue == s.expireQueue + [e] && r.certs == s.certs
    ensures |s.expireQueue| >= StoreCap ==>
      && r.expireQueue == s.expireQueue[1..] + [e]
      && (forall k :: k in r.certs <==> k in s.certs && s.certs[k] != s.expireQueue[0])
      && (forall k :: k in r.certs ==> r.certs[k] == s.certs[k])
  {
    var q := s.expireQueue + [e];
    if |q| > StoreCap then
      var d := q[0];
      s.(expireQueue := q[1..], certs := map k | k in s.certs && s.certs[k] != d :: s.certs[k])
    else
      s.(expireQueue := q)
  }

  /** Enqueue several entries in order. */
  function ExpireAll(s: Store, es: seq<Entry>): Store
    decreases |es|
  {
    if |es| == 0 then s else ExpireAll(Expire(s, es[0]), es[1..])
  }

  function Max(a: int, b: int): int { if a < b then b else a }

  /** Dropping a prefix of a concatenation only touches its first part. */
  lemma SliceOfConcat(x: seq<Entry>, y: seq<Entry>, a: nat)
    requires a <= |x|
    ensures (x + y)[a..] == x[a..] + y
  {
  }

  /** Dropping `a` and then `b` elements drops `a + b`. */
  lemma SliceOfSlice(q: seq<Entry>, a: nat, b: nat)
    requires a + b <= |q|
    ensures q[a..][b..] == q[a + b..]
  {
  }

  /** The queue is FIFO by insertion: after any run of insertions it holds
      exactly the newest `StoreCap` entries (or all of them), oldest first. */
  lemma {:induction false} ExpireKeepsNewest(s: Store, es: seq<Entry>)
    requires Valid(s)
    ensures var q := s.expireQueue + es;
      ExpireAll(s, es).expireQueue == q[Max(0, |q| - StoreCap)..]
    decreases |es|
  {
    var q := s.expireQueue + es;
    if |es| == 0 {
      assert q == s.expireQueue;
    } else {
      var s1 := Expire(s, es[0]);
      var q0 := s.expireQueue + [es[0]];
      var a := Max(0, |q0| - StoreCap);
      assert s1.expireQueue == q0[a..];
      ExpireKeepsNewest(s1, es[1..]);
      assert q == q0 + es[1..];
      WindowConcat(q0, es[1..]);
    }
  }

  /** Keeping the newest `StoreCap` entries after one insertion and again
      after the rest keeps the same entries as doing it once at the end. */
  lemma WindowConcat(q0: seq<Entry>, rest: seq<Entry>)
    requires |q0| <= StoreCap + 1
    ensures var a := Max(0, |q0| - StoreCap); var q1 := q0[a..] + rest; var q := q0 + rest;
      q1[Max(0, |q1| - StoreCap)..] == q[Max(0, |q| - StoreCap)..]
  {
    var a := Max(0, |q0| - StoreCap);
    var q := q0 + rest;
    SliceOfConcat(q0, rest, a);
    WindowStep(|q0|, |q|);
    SliceOfSlice(q, a, Max(0, |q| - a - StoreCap));
  }

  /** Trimming to the cap after one insertion and then after the rest trims
      as much as trimming once after all of them. */
  lemma WindowStep(n0: nat, n: nat)
    requires n0 <= StoreCap + 1 && n0 <= n
    ensures Max(0, n0 - StoreCap) + Max(0, n - Max(0, n0 - StoreCap) - StoreCap) == Max(0, n - StoreCap)
  {
  }

  // ---------------------------------------------------------------------------
  // Registration

  /** One `Name` key per string, in order. */
  function NameKeys(names: seq<string>): (keys: seq<Key>)
    ensures |keys| == |names|
    ensures forall i :: 0 <= i < |names| ==> keys[i] == Name(names[i])
  {
    seq(|names|, i requires 0 <= i < |names| => Name(names[i]))
  }

  /** The keys `add_cert` binds, in the order it binds them: the CN when it is
      a non-empty string, each SAN's value string, each extra name. */
  function RegisteredKeys(e: Entry, names: seq<string>): (keys: seq<Key>)
    ensures forall k :: k in keys <==>
      || (CommonName(e.cert).Some? && CommonName(e.cert).value != "" && k == Name(CommonName(e.cert).value))
      || (exists a :: a in AltNames(e.cert) && k == Name(ValueString(a)))
      || (exists n :: n in names && k == Name(n))
  {
    var cn := CommonName(e.cert);
    var cnPart := if cn.Some? && cn.value != "" then [Name(cn.value)] else [];
    var altPart := AltNameKeys(AltNames(e.cert));
    NameKeysMembers(names);
    cnPart + altPart + NameKeys(names)
  }

  /** One key per SAN value string, in SAN order. */
  function AltNameKeys(alts: seq<GeneralName>): (keys: seq<Key>)
    ensures forall k :: k in keys <==> exists a :: a in alts && k == Name(ValueString(a))
  {
    var keys := seq(|alts|, i requires 0 <= i < |alts| => Name(ValueString(alts[i])));
    assert forall k :: k in keys ==> exists a :: a in alts && k == Name(ValueString(a)) by {
      forall k | k in keys ensures exists a :: a in alts && k == Name(ValueString(a)) {
        var i :| 0 <= i < |keys| && keys[i] == k;
        assert alts[i] in alts;
      }
    }
    assert forall a :: a in alts ==> Name(ValueString(a)) in keys by {
      forall a | a in alts ensures Name(ValueString(a)) in keys {
        var i :| 0 <= i < |alts| && alts[i] == a;
        assert keys[i] == Name(ValueString(a));
      }
    }
    keys
  }

  /** The name keys are exactly the names, as keys. */
  lemma NameKeysMembers(names: seq<string>)
    ensures forall k :: k in NameKeys(names) <==> exists n :: n in names && k == Name(n)
  {
    var keys := NameKeys(names);
    forall k | k in keys ensures exists n :: n in names && k == Name(n) {
      var i :| 0 <= i < |keys| && keys[i] == k;
      assert names[i] in names;
    }
    forall n | n in names ensures Name(n) in keys {
      var i :| 0 <= i < |names| && names[i] == n;
      assert keys[i] == Name(n);
    }
  }

  /** Bind every key of `keys` to `e`, one after the other. */
  function BindAll(m: map<Key, Entry>, keys: seq<Key>, e: Entry): (r: map<Key, Entry>)
    ensures forall k :: k in r <==> k in m || k in keys
    ensures forall k :: k in keys ==> r[k] == e
    ensures forall k :: k in m && k !in keys ==> r[k] == m[k]
    decreases |keys|
  {
    if |keys| == 0 then m else BindAll(m[keys[0] := e], keys[1..], e)
  }

  /** `add_cert`: the entry is bound under its CN (when non-empty), under every
      SAN value and under every extra name, overwriting earlier bindings;
      every other key keeps its entry, and the expiry queue is untouched. */
  function AddCert(s: Store, e: Entry, names: seq<string>): (r: Store)
    ensures SameDefaults(s, r) && r.expireQueue == s.expireQueue
    ensures Valid(s) ==> Valid(r)
    ensures CommonName(e.cert).Some? && CommonName(e.cert).value != "" ==>
      Name(CommonName(e.cert).value) in r.certs && r.certs[Name(CommonName(e.cert).value)] == e
    ensures forall a :: a in AltNames(e.cert) ==> Name(ValueString(a)) in r.certs && r.certs[Name(ValueString(a))] == e
    ensures forall n :: n in names ==> Name(n) in r.certs && r.certs[Name(n)] == e
    ensures forall k :: k in r.certs <==> k in s.certs || k in RegisteredKeys(e, names)
    ensures forall k :: k in s.certs && k !in RegisteredKeys(e, names) ==> r.certs[k] == s.certs[k]
  {
    var keys := RegisteredKeys(e, names);
    s.(certs := BindAll(s.certs, keys, e))
  }

  // ---------------------------------------------------------------------------
  // Lookup keys

  /** The wildcard form covering labels `i..` of a split name. */
  function WildcardForm(parts: seq<string>, i: nat): string
    requires i < |parts|
  {
    "*." + Join(parts[i..])
  }

  /** `asterisk_forms` on a string: the name itself, then for every label
      after the first a `*.` wildcard over the remaining labels. */
  function AsteriskForms(dn: string): (forms: seq<string>)
    ensures |forms| == CountDots(dn) + 1
    ensures forms[0] == dn
    ensures forall i :: 1 <= i < |forms| ==> forms[i] == WildcardForm(Split(dn), i)
  {
    var parts := Split(dn);
    [dn] + seq(|parts| - 1, i requires 0 <= i < |parts| - 1 => WildcardForm(parts, i + 1))
  }

  /** The join of all parts is the join of the first `i` parts followed by
      the wildcard form over the rest without its `*`. */
  lemma {:induction false} JoinBeforeWildcard(parts: seq<string>, i: nat)
    requires 1 <= i < |parts|
    ensures Join(parts) == Join(parts[..i]) + WildcardForm(parts, i)[1..]
  {
    var a := Join(parts[..i]);
    var b := Join(parts[i..]);
    JoinAt(parts, i);
    assert WildcardForm(parts, i)[1..] == "." + b;
    assert a + "." + b == a + ("." + b);
  }

  /** A wildcard form is `*.` followed by a label suffix of the name: its own
      labels are labels `i..`, the name is labels `..i` followed by the form
      without its `*`, and it is never the bare wildcard. */
  lemma {:induction false} WildcardFormLabels(dn: string, i: nat)
    requires 1 <= i < |Split(dn)|
    ensures Split(WildcardForm(Split(dn), i)[2..]) == Split(dn)[i..]
    ensures dn == Join(Split(dn)[..i]) + WildcardForm(Split(dn), i)[1..]
    ensures WildcardForm(Split(dn), i) != "*"
  {
    var parts := Split(dn);
    var f := WildcardForm(parts, i);
    assert f[2..] == Join(parts[i..]);
    assert forall k :: 0 <= k < |parts[i..]| ==> '.' !in parts[i..][k];
    SplitJoin(parts[i..]);
    JoinSplit(dn);
    JoinBeforeWildcard(parts, i);
  }

  /** Form `i` of `asterisk_forms` (after the first) covers exactly labels
      `i..` of the name, ends the name, and is never the bare wildcard. */
  lemma {:induction false} AsteriskFormsLabels(dn: string, i: nat)
    requires 1 <= i < |AsteriskForms(dn)|
    ensures Split(AsteriskForms(dn)[i][2..]) == Split(dn)[i..]
    ensures dn == Join(Split(dn)[..i]) + AsteriskForms(dn)[i][1..]
    ensures AsteriskForms(dn)[i] != "*"
  {
    WildcardFormLabels(dn, i);
  }

  /** `asterisk_forms` on a general name: DNS names get their wildcard forms,
      any other name only its own value string. */
  function AsteriskFormsOf(g: GeneralName): (forms: seq<string>)
    ensures |forms| >= 1 && forms[0] == ValueString(g)
    ensures g.OtherName? ==> |forms| == 1
    ensures g.DnsName? ==> |forms| == CountDots(g.name) + 1
    ensures g.DnsName? ==> forms == AsteriskForms(g.name)
  {
    match g
    case DnsName(n) => AsteriskForms(n)
    case OtherName(t) => [t]
  }

  /** The names of several lists as keys, list by list. */
  function FlattenNames(lists: seq<seq<string>>): (keys: seq<Key>)
    ensures forall i :: 0 <= i < |keys| ==> keys[i].Name?
    decreases |lists|
  {
    if |lists| == 0 then [] else NameKeys(lists[0]) + FlattenNames(lists[1..])
  }

  /** List `j`'s names come after those of every earlier list and before
      those of every later one. */
  lemma {:induction false} FlattenSplit(lists: seq<seq<string>>, j: nat)
    requires j < |lists|
    ensures FlattenNames(lists) == FlattenNames(lists[..j]) + NameKeys(lists[j]) + FlattenNames(lists[j + 1..])
    decreases j
  {
    if j > 0 {
      var tail := lists[1..];
      FlattenSplit(tail, j - 1);
      var head := NameKeys(lists[0]);
      var a := FlattenNames(tail[..j - 1]);
      var b := NameKeys(tail[j - 1]);
      var c := FlattenNames(tail[j..]);
      var pre := lists[..j];
      TailSlices(lists, j);
      assert FlattenNames(pre) == head + a;
      ConcatAssoc(head, a, b, c);
    }
  }

  /** How the slices of a list relate to the slices of its tail. */
  lemma TailSlices(lists: seq<seq<string>>, j: nat)
    requires 0 < j < |lists|
    ensures lists[..j][0] == lists[0] && lists[..j][1..] == lists[1..][..j - 1]
    ensures lists[1..][j - 1] == lists[j] && lists[1..][j..] == lists[j + 1..]
  {
  }

  lemma ConcatAssoc(h: seq<Key>, a: seq<Key>, b: seq<Key>, c: seq<Key>)
    ensures h + (a + b + c) == (h + a) + b + c
  {
  }

  /** The flattened keys are exactly the names of the lists. */
  lemma {:induction false} FlattenMembers(lists: seq<seq<string>>)
    ensures forall k :: k in FlattenNames(lists) <==>
      exists j, f :: 0 <= j < |lists| && f in lists[j] && k == Name(f)
    decreases |lists|
  {
    if |lists| > 0 {
      var head := NameKeys(lists[0]);
      var rest := FlattenNames(lists[1..]);
      FlattenMembers(lists[1..]);
      NameKeysMembers(lists[0]);
      forall k | k in head + rest
        ensures exists j, f :: 0 <= j < |lists| && f in lists[j] && k == Name(f)
      {
        if k !in head {
          var j, f :| 0 <= j < |lists| - 1 && f in lists[1..][j] && k == Name(f);
          assert lists[1..][j] == lists[j + 1];
        }
      }
      forall k, j, f | 0 <= j < |lists| && f in lists[j] && k == Name(f)
        ensures k in head + rest
      {
        if j > 0 {
          assert lists[1..][j - 1] == lists[j];
        }
      }
    }
  }

  /** The forms of each SAN, SAN by SAN. */
  function SanFormLists(sans: seq<GeneralName>): (lists: seq<seq<string>>)
    ensures |lists| == |sans| && forall j :: 0 <= j < |sans| ==> lists[j] == AsteriskFormsOf(sans[j])
  {
    seq(|sans|, j requires 0 <= j < |sans| => AsteriskFormsOf(sans[j]))
  }

  /** The keys contributed by the SANs, SAN by SAN; all of them name keys. */
  function SanKeys(sans: seq<GeneralName>): (keys: seq<Key>)
    ensures forall i :: 0 <= i < |keys| ==> keys[i].Name?
  {
    FlattenNames(SanFormLists(sans))
  }

  /** The SAN keys are exactly the forms of the SANs. */
  lemma SanKeysMembers(sans: seq<GeneralName>)
    ensures forall k :: k in SanKeys(sans) <==>
      exists j, f :: 0 <= j < |sans| && f in AsteriskFormsOf(sans[j]) && k == Name(f)
  {
    FlattenMembers(SanFormLists(sans));
  }

  /** SAN by SAN: the keys of SAN `j` come after those of every earlier SAN
      and before those of every later one. */
  lemma SanKeysSplit(sans: seq<GeneralName>, j: nat)
    requires j < |sans|
    ensures SanKeys(sans) == SanKeys(sans[..j]) + NameKeys(AsteriskFormsOf(sans[j])) + SanKeys(sans[j + 1..])
  {
    var lists := SanFormLists(sans);
    FlattenSplit(lists, j);
    assert lists[..j] == SanFormLists(sans[..j]);
    assert lists[j + 1..] == SanFormLists(sans[j + 1..]);
  }

  /** The common name's lookup names: its asterisk forms when it is a
      non-empty string (`if commonname:`), none otherwise. */
  function CommonNameForms(cn: Option<string>): seq<string>
  {
    if cn.Some? && cn.value != "" then AsteriskForms(cn.value) else []
  }

  /** The candidate keys of `get_cert` in priority order: the common name's
      forms in order, then the SANs' keys, then the bare wildcard, and last
      the generated-entry key. */
  function PotentialKeys(cn: Option<string>, sans: seq<GeneralName>): (keys: seq<Key>)
    ensures |keys| == |CommonNameForms(cn)| + |SanKeys(sans)| + 2
    ensures forall i :: 0 <= i < |CommonNameForms(cn)| ==> keys[i] == Name(CommonNameForms(cn)[i])
    ensures forall p :: 0 <= p < |SanKeys(sans)| ==> keys[|CommonNameForms(cn)| + p] == SanKeys(sans)[p]
    ensures keys[|keys| - 2] == Name("*") && keys[|keys| - 1] == Generated(cn, sans)
    ensures forall i :: 0 <= i < |keys| - 1 ==> keys[i].Name?
  {
    Candidates(CommonNameForms(cn), SanKeys(sans), Generated(cn, sans))
  }

  /** The name keys of `c`, then `sk`, then the bare wildcard and `last`. */
  function Candidates(c: seq<string>, sk: seq<Key>, last: Key): (keys: seq<Key>)
    ensures |keys| == |c| + |sk| + 2
    ensures forall i :: 0 <= i < |c| ==> keys[i] == Name(c[i])
    ensures forall p :: 0 <= p < |sk| ==> keys[|c| + p] == sk[p]
    ensures keys[|keys| - 2] == Name("*") && keys[|keys| - 1] == last
  {
    var tail := [Name("*"), last];
    ConcatIndex(NameKeys(c), sk, tail);
    NameKeys(c) + sk + tail
  }

  /** The position of the first key of `keys` bound in `m`, if any. */
  function FirstPresent(keys: seq<Key>, m: map<Key, Entry>): (found: Option<nat>)
    ensures found.Some? ==>
      found.value < |keys| && keys[found.value] in m
      && forall j :: 0 <= j < found.value ==> keys[j] !in m
    ensures found.None? ==> forall j :: 0 <= j < |keys| ==> keys[j] !in m
    decreases |keys|
  {
    if |keys| == 0 then None
    else if keys[0] in m then Some(0)
    else
      match FirstPresent(keys[1..], m)
      case None => None
      case Some(j) => Some(j + 1)
  }

  /** A bound key with no bound key before it is the one found. */
  lemma FirstPresentAt(keys: seq<Key>, m: map<Key, Entry>, i: nat)
    requires i < |keys| && keys[i] in m
    requires forall j :: 0 <= j < i ==> keys[j] !in m
    ensures FirstPresent(keys, m) == Some(i)
  {
  }

  // ---------------------------------------------------------------------------
  // get_cert

  /** `r` is `s` after filing `e` under `g` and enqueuing it for expiry: the
      queue gains `e` (losing its oldest entry at the cap); `g` is bound to `e`
      unless the eviction removed it again; every other key keeps its entry,
      and at the cap exactly the keys bound to the evicted entry are dropped,
      so no key is left bound to it. */
  predicate FiledForExpiry(s: Store, r: Store, g: Key, e: Entry)
  {
    && SameDefaults(s, r)
    && (|s.expireQueue| < StoreCap ==> r.expireQueue == s.expireQueue + [e])
    && (|s.expireQueue| >= StoreCap ==> |s.expireQueue| >= 1 && r.expireQueue == s.expireQueue[1..] + [e])
    && (forall k :: k in r.certs && k != g ==> k in s.certs && r.certs[k] == s.certs[k])
    && (forall k :: k in s.certs && k != g && (|s.expireQueue| < StoreCap || s.certs[k] != s.expireQueue[0]) ==> k in r.certs)
    && ((|s.expireQueue| < StoreCap || s.expireQueue[0] != e) ==> g in r.certs && r.certs[g] == e)
    && (g in r.certs ==> r.certs[g] == e)
    && (|s.expireQueue| >= StoreCap ==> forall k :: k in r.certs ==> r.certs[k] != s.expireQueue[0])
  }

  /** The miss path of `get_cert`: issue a dummy certificate from the default
      CA, file it under the generated key and enqueue it for expiry. */
  function Issue(s: Store, cn: Option<string>, sans: seq<GeneralName>,
                 organization: Option<string>, serial: nat): (r: (Store, Entry))
    ensures r.1.cert == DummyCert(s.defaultCa, cn, sans, organization, serial)
    ensures r.1.privateKey == s.defaultKey && r.1.chainFile == s.defaultChainFile
    ensures r.1.chainCerts == s.defaultChainCerts
    ensures FiledForExpiry(s, r.0, Generated(cn, sans), r.1)
    ensures Valid(s) ==> Valid(r.0)
  {
    var e := Entry(DummyCert(s.defaultCa, cn, sans, organization, serial),
                   s.defaultKey, s.defaultChainFile, s.defaultChainCerts);
    (Expire(s.(certs := s.certs[Generated(cn, sans) := e]), e), e)
  }

  /** `get_cert`: the entry under the first bound candidate key, leaving the
      store (and so the expiry queue) untouched; otherwise a newly issued
      entry filed under the `(commonname, sans)` key. A hit is recognised
      whatever the key is (see the as-written variant below for mitmproxy's
      truthiness test). */
  function GetCert(s: Store, cn: Option<string>, sans: seq<GeneralName>,
                   organization: Option<string>, serial: nat): (r: (Store, Entry))
    ensures Valid(s) ==> Valid(r.0)
    ensures var keys := PotentialKeys(cn, sans); var found := FirstPresent(keys, s.certs);
      found.Some? ==> r.0 == s && r.1 == s.certs[keys[found.value]]
    ensures FirstPresent(PotentialKeys(cn, sans), s.certs).None? ==>
      && r.1.cert == DummyCert(s.defaultCa, cn, sans, organization, serial)
      && r.1.privateKey == s.defaultKey && r.1.chainFile == s.defaultChainFile
      && r.1.chainCerts == s.defaultChainCerts
      && FiledForExpiry(s, r.0, Generated(cn, sans), r.1)
  {
    var keys := PotentialKeys(cn, sans);
    var found := FirstPresent(keys, s.certs);
    if found.Some? then (s, s.certs[keys[found.value]])
    else Issue(s, cn, sans, organization, serial)
  }

  /** A generated entry is remembered: right after a miss, the same request
      finds the entry just issued and changes nothing (as long as the new
      entry is not already queued, which random serials make certain). */
  lemma {:induction false} GetCertRemembers(s: Store, cn: Option<string>, sans: seq<GeneralName>,
                                            organization: Option<string>, serial: nat, serial2: nat)
    requires Valid(s)
    requires FirstPresent(PotentialKeys(cn, sans), s.certs).None?
    requires GetCert(s, cn, sans, organization, serial).1 !in s.expireQueue
    ensures var r := GetCert(s, cn, sans, organization, serial);
      GetCert(r.0, cn, sans, organization, serial2) == r
  {
    var keys := PotentialKeys(cn, sans);
    var r := GetCert(s, cn, sans, organization, serial);
    var g := Generated(cn, sans);
    assert |s.expireQueue| >= StoreCap ==> s.expireQueue[0] != r.1 by {
      if |s.expireQueue| >= StoreCap { assert s.expireQueue[0] in s.expireQueue; }
    }
    assert g in r.0.certs;
    forall j | 0 <= j < |keys| - 1 ensures keys[j] !in r.0.certs {
      assert keys[j] != g;
    }
    FirstPresentAt(keys, r.0.certs, |keys| - 1);
  }

  /** An exact binding of the common name wins over every other candidate. */
  lemma ExactCommonNameWins(s: Store, cn: string, sans: seq<GeneralName>,
                            organization: Option<string>, serial: nat)
    requires cn != "" && Name(cn) in s.certs
    ensures GetCert(s, Some(cn), sans, organization, serial) == (s, s.certs[Name(cn)])
  {
    var keys := PotentialKeys(Some(cn), sans);
    FirstPresentAt(keys, s.certs, 0);
  }

  /** The common name's forms are tried in order: the first of them that is
      bound is the entry returned, and the store does not change. */
  lemma CommonNameFormFound(s: Store, cn: string, sans: seq<GeneralName>,
                            organization: Option<string>, serial: nat, i: nat)
    requires cn != "" && i < |AsteriskForms(cn)| && Name(AsteriskForms(cn)[i]) in s.certs
    requires forall i' :: 0 <= i' < i ==> Name(AsteriskForms(cn)[i']) !in s.certs
    ensures GetCert(s, Some(cn), sans, organization, serial) == (s, s.certs[Name(AsteriskForms(cn)[i])])
  {
    var keys := PotentialKeys(Some(cn), sans);
    FirstPresentAt(keys, s.certs, i);
  }

  /** Once any of the common name's forms is bound, the SANs make no
      difference: the lookup is a hit among the common name's forms. */
  lemma CommonNameFormBeatsSans(s: Store, cn: string, sans: seq<GeneralName>,
                                organization: Option<string>, serial: nat)
    requires cn != "" && exists f :: f in AsteriskForms(cn) && Name(f) in s.certs
    ensures GetCert(s, Some(cn), sans, organization, serial) == GetCert(s, Some(cn), [], organization, serial)
    ensures GetCert(s, Some(cn), sans, organization, serial).0 == s
  {
    var f :| f in AsteriskForms(cn) && Name(f) in s.certs;
    var i := FirstBoundName(AsteriskForms(cn), s.certs, f);
    CommonNameFormFound(s, cn, sans, organization, serial, i);
    CommonNameFormFound(s, cn, [], organization, serial, i);
  }

  /** The SANs are tried in order, each with its forms in order: when no
      form of the common name and no form of an earlier SAN is bound, the
      first bound form of SAN `j` is the entry returned, whatever later SANs
      are bound to. */
  lemma SanFormFound(s: Store, cn: Option<string>, sans: seq<GeneralName>,
                     organization: Option<string>, serial: nat, j: nat, k: nat)
    requires j < |sans| && k < |AsteriskFormsOf(sans[j])|
    requires forall f :: f in CommonNameForms(cn) ==> Name(f) !in s.certs
    requires forall j', f :: 0 <= j' < j && f in AsteriskFormsOf(sans[j']) ==> Name(f) !in s.certs
    requires forall k' :: 0 <= k' < k ==> Name(AsteriskFormsOf(sans[j])[k']) !in s.certs
    requires Name(AsteriskFormsOf(sans[j])[k]) in s.certs
    ensures GetCert(s, cn, sans, organization, serial) == (s, s.certs[Name(AsteriskFormsOf(sans[j])[k])])
    ensures AsteriskFormsOf(sans[j])[k] != "" ==>
      GetCertAsWritten(s, cn, sans, organization, serial) == (s, s.certs[Name(AsteriskFormsOf(sans[j])[k])])
  {
    var p := SanFormPosition(s, sans, j, k);
    SanKeyHit(s, cn, sans, organization, serial, p, Name(AsteriskFormsOf(sans[j])[k]));
  }

  /** With no form of the common name bound, the first bound SAN key is
      the entry returned. */
  lemma SanKeyHit(s: Store, cn: Option<string>, sans: seq<GeneralName>,
                  organization: Option<string>, serial: nat, p: nat, target: Key)
    requires forall f :: f in CommonNameForms(cn) ==> Name(f) !in s.certs
    requires p < |SanKeys(sans)| && SanKeys(sans)[p] == target && target in s.certs
    requires forall q :: 0 <= q < p ==> SanKeys(sans)[q] !in s.certs
    ensures GetCert(s, cn, sans, organization, serial) == (s, s.certs[target])
    ensures target != Name("") ==> GetCertAsWritten(s, cn, sans, organization, serial) == (s, s.certs[target])
  {
    SanKeyFirst(s.certs, cn, sans, p);
    HitAt(s, cn, sans, organization, serial, |CommonNameForms(cn)| + p, target);
  }

  /** Where the first bound SAN key sits among the candidates when no form
      of the common name is bound. */
  lemma SanKeyFirst(m: map<Key, Entry>, cn: Option<string>, sans: seq<GeneralName>, p: nat)
    requires forall f :: f in CommonNameForms(cn) ==> Name(f) !in m
    requires p < |SanKeys(sans)| && SanKeys(sans)[p] in m
    requires forall q :: 0 <= q < p ==> SanKeys(sans)[q] !in m
    ensures var keys := PotentialKeys(cn, sans); var i := |CommonNameForms(cn)| + p;
      && FirstPresent(keys, m).Some? && FirstPresent(keys, m).value == i
      && i < |keys| && keys[i] == SanKeys(sans)[p]
  {
    CandidatesFirstAfter(CommonNameForms(cn), SanKeys(sans), Generated(cn, sans), m, p);
  }

  /** `FirstAfterPrefix` for a candidate list. */
  lemma CandidatesFirstAfter(c: seq<string>, sk: seq<Key>, last: Key, m: map<Key, Entry>, p: nat)
    requires forall f :: f in c ==> Name(f) !in m
    requires p < |sk| && sk[p] in m && forall q :: 0 <= q < p ==> sk[q] !in m
    ensures var keys := Candidates(c, sk, last);
      && FirstPresent(keys, m).Some? && FirstPresent(keys, m).value == |c| + p
      && |c| + p < |keys| && keys[|c| + p] == sk[p]
  {
    FirstAfterPrefix(Candidates(c, sk, last), m, c, sk, p);
  }

  /** The lookup returns the entry of the first bound candidate. */
  lemma HitAt(s: Store, cn: Option<string>, sans: seq<GeneralName>,
              organization: Option<string>, serial: nat, i: nat, target: Key)
    requires FirstPresent(PotentialKeys(cn, sans), s.certs).Some?
    requires FirstPresent(PotentialKeys(cn, sans), s.certs).value == i
    requires i < |PotentialKeys(cn, sans)| && PotentialKeys(cn, sans)[i] == target
    ensures target in s.certs
    ensures GetCert(s, cn, sans, organization, serial) == (s, s.certs[target])
  {
  }

  /** A list of names with one bound among them has a first bound one. */
  lemma {:induction false} FirstBoundName(names: seq<string>, m: map<Key, Entry>, f: string) returns (i: nat)
    requires f in names && Name(f) in m
    ensures i < |names| && Name(names[i]) in m
    ensures forall i' :: 0 <= i' < i ==> Name(names[i']) !in m
    decreases |names|
  {
    if Name(names[0]) in m {
      i := 0;
    } else {
      var t := FirstBoundName(names[1..], m, f);
      i := t + 1;
      assert forall i' :: 0 < i' <= i ==> names[i'] == names[1..][i' - 1];
    }
  }

  /** In keys made of some unbound names followed by `sk`, the first bound
      key is the first bound one of `sk`. */
  lemma FirstAfterPrefix(keys: seq<Key>, m: map<Key, Entry>, c: seq<string>, sk: seq<Key>, p: nat)
    requires |c| + |sk| <= |keys|
    requires forall i :: 0 <= i < |c| ==> keys[i] == Name(c[i])
    requires forall q :: 0 <= q < |sk| ==> keys[|c| + q] == sk[q]
    requires forall f :: f in c ==> Name(f) !in m
    requires p < |sk| && sk[p] in m && forall q :: 0 <= q < p ==> sk[q] !in m
    ensures FirstPresent(keys, m).Some? && FirstPresent(keys, m).value == |c| + p
    ensures |c| + p < |keys| && keys[|c| + p] == sk[p]
  {
    forall q | 0 <= q < |c| + p ensures keys[q] !in m {
      if q < |c| {
        assert c[q] in c;
      } else {
        assert keys[q] == sk[q - |c|];
      }
    }
    FirstPresentAt(keys, m, |c| + p);
  }

  /** The position among the SAN keys of form `k` of SAN `j`, when every
      form before it (of earlier SANs, and of SAN `j` itself) is unbound. */
  lemma SanFormPosition(s: Store, sans: seq<GeneralName>, j: nat, k: nat) returns (p: nat)
    requires j < |sans| && k < |AsteriskFormsOf(sans[j])|
    requires forall j', f :: 0 <= j' < j && f in AsteriskFormsOf(sans[j']) ==> Name(f) !in s.certs
    requires forall k' :: 0 <= k' < k ==> Name(AsteriskFormsOf(sans[j])[k']) !in s.certs
    ensures p < |SanKeys(sans)| && SanKeys(sans)[p] == Name(AsteriskFormsOf(sans[j])[k])
    ensures forall q :: 0 <= q < p ==> SanKeys(sans)[q] !in s.certs
  {
    SanKeysSplit(sans, j);
    EarlierSanKeysUnbound(s, sans, j);
    MiddleFirst(SanKeys(sans[..j]), AsteriskFormsOf(sans[j]), SanKeys(sans[j + 1..]), s.certs, k);
    p := |SanKeys(sans[..j])| + k;
  }

  /** In `a`, then the name keys of `forms`, then `c`: with nothing of `a`
      bound and no form before `k` bound, every key before form `k` is
      unbound. */
  lemma MiddleFirst(a: seq<Key>, forms: seq<string>, c: seq<Key>, m: map<Key, Entry>, k: nat)
    requires forall q :: 0 <= q < |a| ==> a[q] !in m
    requires k < |forms| && forall k' :: 0 <= k' < k ==> Name(forms[k']) !in m
    ensures var all := a + NameKeys(forms) + c;
      && |a| + k < |all| && all[|a| + k] == Name(forms[k])
      && forall q :: 0 <= q < |a| + k ==> all[q] !in m
  {
    ConcatIndex(a, NameKeys(forms), c);
  }

  /** Positions in a three-part concatenation. */
  lemma ConcatIndex(a: seq<Key>, b: seq<Key>, c: seq<Key>)
    ensures forall q :: 0 <= q < |a| ==> (a + b + c)[q] == a[q]
    ensures forall q :: 0 <= q < |b| ==> (a + b + c)[|a| + q] == b[q]
    ensures forall q :: 0 <= q < |c| ==> (a + b + c)[|a| + |b| + q] == c[q]
  {
  }

  /** The keys of the SANs before SAN `j` are unbound when none of their
      forms is. */
  lemma EarlierSanKeysUnbound(s: Store, sans: seq<GeneralName>, j: nat)
    requires j <= |sans|
    requires forall j', f :: 0 <= j' < j && f in AsteriskFormsOf(sans[j']) ==> Name(f) !in s.certs
    ensures forall q :: 0 <= q < |SanKeys(sans[..j])| ==> SanKeys(sans[..j])[q] !in s.certs
  {
    var before := SanKeys(sans[..j]);
    SanKeysMembers(sans[..j]);
    forall q | 0 <= q < |before| ensures before[q] !in s.certs {
      assert before[q] in before;
      var j', f :| 0 <= j' < j && f in AsteriskFormsOf(sans[..j][j']) && before[q] == Name(f);
      assert sans[..j][j'] == sans[j'];
    }
  }

  /** Any bound candidate makes the lookup a hit that leaves the store
      untouched; as written this needs nothing bound under the empty name. */
  lemma BoundCandidateIsHit(s: Store, cn: Option<string>, sans: seq<GeneralName>,
                            organization: Option<string>, serial: nat, i: nat)
    requires i < |PotentialKeys(cn, sans)| && PotentialKeys(cn, sans)[i] in s.certs
    ensures GetCert(s, cn, sans, organization, serial).0 == s
    ensures Name("") !in s.certs ==> GetCertAsWritten(s, cn, sans, organization, serial).0 == s
  {
  }

  /** With the bare wildcard bound, `get_cert` never issues a certificate and
      never touches the store; as written this holds as long as nothing is
      bound under the empty name. */
  lemma WildcardPreventsIssue(s: Store, cn: Option<string>, sans: seq<GeneralName>,
                              organization: Option<string>, serial: nat)
    requires Name("*") in s.certs
    ensures GetCert(s, cn, sans, organization, serial).0 == s
    ensures Name("") !in s.certs ==> GetCertAsWritten(s, cn, sans, organization, serial).0 == s
  {
    var keys := PotentialKeys(cn, sans);
    BoundCandidateIsHit(s, cn, sans, organization, serial, |keys| - 2);
  }

  /** A SAN whose own value is bound makes the lookup a hit that leaves the
      store untouched; as written this holds as long as nothing is bound
      under the empty name. */
  lemma SanBindingIsFound(s: Store, cn: Option<string>, sans: seq<GeneralName>,
                          organization: Option<string>, serial: nat, a: GeneralName)
    requires a in sans && Name(ValueString(a)) in s.certs
    ensures GetCert(s, cn, sans, organization, serial).0 == s
    ensures Name("") !in s.certs ==> GetCertAsWritten(s, cn, sans, organization, serial).0 == s
  {
    var j :| 0 <= j < |sans| && sans[j] == a;
    var before := SanKeys(sans[..j]);
    SanKeysSplit(sans, j);
    MiddleFirst(before, AsteriskFormsOf(a), SanKeys(sans[j + 1..]), map[], 0);
    CandidateAt(CommonNameForms(cn), SanKeys(sans), Generated(cn, sans), |before|);
    BoundCandidateIsHit(s, cn, sans, organization, serial, |CommonNameForms(cn)| + |before|);
  }

  /** The SAN key at position `p` is candidate `|c| + p`. */
  lemma CandidateAt(c: seq<string>, sk: seq<Key>, last: Key, p: nat)
    requires p < |sk|
    ensures |c| + p < |Candidates(c, sk, last)| && Candidates(c, sk, last)[|c| + p] == sk[p]
  {
  }

  // ---------------------------------------------------------------------------
  // get_cert as written

  /** Python truthiness of a lookup key: only the empty string is false. */
  predicate Truthy(k: Key): (b: bool)
    ensures b <==> k != Name("")
  {
    k.Generated? || k.name != ""
  }

  /** `get_cert` exactly as mitmproxy writes it: the first bound key is only
      used when it is truthy (`if name:`), so a bound empty-string key is
      treated like a miss. */
  function GetCertAsWritten(s: Store, cn: Option<string>, sans: seq<GeneralName>,
                            organization: Option<string>, serial: nat): (r: (Store, Entry))
    ensures Valid(s) ==> Valid(r.0)
    ensures var keys := PotentialKeys(cn, sans); var found := FirstPresent(keys, s.certs);
      found.Some? && keys[found.value] != Name("") ==> r == GetCert(s, cn, sans, organization, serial)
    ensures var keys := PotentialKeys(cn, sans); var found := FirstPresent(keys, s.certs);
      found.None? || keys[found.value] == Name("") ==> r == Issue(s, cn, sans, organization, serial)
  {
    var keys := PotentialKeys(cn, sans);
    var found := FirstPresent(keys, s.certs);
    if found.Some? && Truthy(keys[found.value]) then (s, s.certs[keys[found.value]])
    else Issue(s, cn, sans, organization, serial)
  }

  /** The discrepancy: with an entry bound under the empty name and a request
      whose only SAN is the empty DNS name, the as-written lookup ignores the
      bound entry and issues a new certificate on every call, while the
      corrected lookup returns the bound entry. */
  lemma EmptyNameKeyIgnored()
    ensures var ca := CreateCa("mitmproxy", "mitmproxy", 0);
      var bound := Entry(ca, 0, None, [ca]);
      var s := NewStore(0, ca, None, []).(certs := map[Name("") := bound]);
      var sans := [DnsName("")];
      var r1 := GetCertAsWritten(s, None, sans, None, 1);
      var r2 := GetCertAsWritten(r1.0, None, sans, None, 2);
      && r1.1 != bound
      && r2.1 != r1.1
      && GetCert(s, None, sans, None, 1) == (s, bound)
  {
    var ca := CreateCa("mitmproxy", "mitmproxy", 0);
    var bound := Entry(ca, 0, None, [ca]);
    var s := NewStore(0, ca, None, []).(certs := map[Name("") := bound]);
    var sans := [DnsName("")];
    var keys := PotentialKeys(None, sans);
    assert keys[0] == Name("");
    assert FirstPresent(keys, s.certs) == Some(0);
    var r1 := GetCertAsWritten(s, None, sans, None, 1);
    assert r1.1.cert.serial == 1;
    assert Name("") in r1.0.certs;
    assert FirstPresent(keys, r1.0.certs) == Some(0);
    var r2 := GetCertAsWritten(r1.0, None, sans, None, 2);
    assert r2.1.cert.serial == 2;
  }
}

=== FILE: certificates.dfy ===
/** The parts of an X.509 certificate the certificate store looks at, and the
    subject and extension rules of the two certificate builders
    (`create_ca`, `dummy_cert`). Keys, signatures, validity periods and
    encodings are not part of this model. */
module Certificates {
  import opened Wrappers

  /** A general name of a subjectAltName extension. DNS names are kept as
      such; every other kind (IP address, e-mail, URI, ...) is kept as the
      string of its value, which is all the store uses of it. */
  datatype GeneralName = DnsName(name: string) | OtherName(text: string)

  /** `str(name.value)`. */
  function ValueString(g: GeneralName): string
  {
    match g
    case DnsName(n) => n
    case OtherName(t) => t
  }

  /** The subject attributes the builders write. */
  datatype NameAttribute = CommonNameAttr(value: string) | OrganizationAttr(value: string)

  datatype SanExtension = SanExtension(names: seq<GeneralName>, critical: bool)

  /** An abstract certificate: subject, issuer, optional subjectAltName
      extension, the basicConstraints CA flag and the serial number. */
  datatype Cert = Cert(
    subject: seq<NameAttribute>,
    issuer: seq<NameAttribute>,
    san: Option<SanExtension>,
    isCa: bool,
    serial: nat)

  /** First common-name attribute of a name, if any. */
  function FirstCommonName(attrs: seq<NameAttribute>): (r: Option<string>)
    ensures r.Some? <==> exists i :: 0 <= i < |attrs| && attrs[i].CommonNameAttr?
    ensures r.Some? ==> exists i :: 0 <= i < |attrs| && attrs[i].CommonNameAttr? && attrs[i].value == r.value
                          && forall i' :: 0 <= i' < i ==> !attrs[i'].CommonNameAttr?
  {
    if |attrs| == 0 then None
    else if attrs[0].CommonNameAttr? then Some(attrs[0].value)
    else FirstCommonName(attrs[1..])
  }

  /** First organization attribute of a name, if any. */
  function FirstOrganization(attrs: seq<NameAttribute>): (r: Option<string>)
    ensures r.Some? <==> exists i :: 0 <= i < |attrs| && attrs[i].OrganizationAttr?
    ensures r.Some? ==> exists i :: 0 <= i < |attrs| && attrs[i].OrganizationAttr? && attrs[i].value == r.value
                          && forall i' :: 0 <= i' < i ==> !attrs[i'].OrganizationAttr?
  {
    if |attrs| == 0 then None
    else if attrs[0].OrganizationAttr? then Some(attrs[0].value)
    else FirstOrganization(attrs[1..])
  }

  /** `Cert.cn`: the value of the subject's first common-name attribute,
      or `None` when it has none. */
  function CommonName(c: Cert): (r: Option<string>)
    ensures r.Some? <==> exists i :: 0 <= i < |c.subject| && c.subject[i].CommonNameAttr?
    ensures r.Some? ==> exists i :: 0 <= i < |c.subject| && c.subject[i].CommonNameAttr? && c.subject[i].value == r.value
                          && forall i' :: 0 <= i' < i ==> !c.subject[i'].CommonNameAttr?
  {
    FirstCommonName(c.subject)
  }

  /** `Cert.organization`: the value of the subject's first organization
      attribute, or `None` when it has none. */
  function Organization(c: Cert): (r: Option<string>)
    ensures r.Some? <==> exists i :: 0 <= i < |c.subject| && c.subject[i].OrganizationAttr?
    ensures r.Some? ==> exists i :: 0 <= i < |c.subject| && c.subject[i].OrganizationAttr? && c.subject[i].value == r.value
                          && forall i' :: 0 <= i' < i ==> !c.subject[i'].OrganizationAttr?
  {
    FirstOrganization(c.subject)
  }

  /** `Cert.altnames`: the SAN list, empty when the extension is absent. */
  function AltNames(c: Cert): (names: seq<GeneralName>)
    ensures c.san.None? ==> names == []
    ensures c.san.Some? ==> names == c.san.value.names
  {
    if c.san.Some? then c.san.value.names else []
  }

  /** A common name is only written into a generated certificate when it is
      shorter than this many characters. */
  const CommonNameLimit: nat := 64

  predicate IsValidCommonName(commonName: Option<string>)
  {
    commonName.Some? && |commonName.value| < CommonNameLimit
  }

  /** `dummy_cert`: a leaf certificate issued by `ca`. The common name is kept
      only when it is present and short enough; the organization whenever it
      is given; the SAN extension is critical exactly when the subject ends
      up without a common name (section 4.2.1.6 of RFC 5280). `serial`
      stands for the random serial number. */
  function DummyCert(ca: Cert, commonName: Option<string>, sans: seq<GeneralName>,
                     organization: Option<string>, serial: nat): (c: Cert)
    ensures CommonName(c).Some? <==> IsValidCommonName(commonName)
    ensures CommonName(c).Some? ==> CommonName(c) == commonName
    ensures Organization(c) == organization
    ensures AltNames(c) == sans
    ensures c.san.Some? && (c.san.value.critical <==> CommonName(c).None?)
    ensures c.subject == [] <==> !IsValidCommonName(commonName) && organization.None?
    ensures c.issuer == ca.subject && !c.isCa && c.serial == serial
  {
    var cnPart := if IsValidCommonName(commonName) then [CommonNameAttr(commonName.value)] else [];
    var orgPart := if organization.Some? then [OrganizationAttr(organization.value)] else [];
    var subject := cnPart + orgPart;
    assert FirstOrganization(orgPart) == organization by {
      if organization.Some? { assert orgPart[1..] == []; }
    }
    assert FirstCommonName(orgPart) == None by {
      if organization.Some? { assert orgPart[1..] == []; }
    }
    assert FirstOrganization(subject) == organization by {
      if IsValidCommonName(commonName) { assert subject[1..] == orgPart; } else { assert subject == orgPart; }
    }
    assert FirstCommonName(subject).Some? <==> IsValidCommonName(commonName) by {
      if !IsValidCommonName(commonName) { assert subject == orgPart; }
    }
    Cert(subject, ca.subject, Some(SanExtension(sans, !IsValidCommonName(commonName))), false, serial)
  }

  /** `create_ca`: a self-signed CA certificate whose subject holds the given
      common name and organization, without a SAN extension. */
  function CreateCa(organization: string, commonName: string, serial: nat): (c: Cert)
    ensures CommonName(c) == Some(commonName)
    ensures Organization(c) == Some(organization)
    ensures c.issuer == c.subject
    ensures c.isCa && AltNames(c) == []
  {
    var name := [CommonNameAttr(commonName), OrganizationAttr(organization)];
    assert name[1..] == [OrganizationAttr(organization)];
    assert FirstOrganization(name[1..]) == Some(organization);
    Cert(name, name, None, true, serial)
  }
}

=== FILE: h3_client.dfy ===
/** `Http3Client`: the client side of the HTTP/3 layer renumbers streams.
    mitmproxy's stream ids (external) are mapped to ids of the H3
    connection (internal) on the way down, and back on the way up, through
    the two tables `ours` (external to internal) and `theirs` (internal to
    external). */
module Http3Client {
  import opened Wrappers
  import opened Http3Connection

  datatype Client = Client(conn: Conn, ours: map<StreamId, StreamId>, theirs: map<StreamId, StreamId>)

  /** The two tables are inverse to each other. */
  predicate Inverse(ours: map<StreamId, StreamId>, theirs: map<StreamId, StreamId>)
  {
    && (forall x :: x in ours ==> ours[x] in theirs && theirs[ours[x]] == x)
    && (forall y :: y in theirs ==> theirs[y] in ours && ours[theirs[y]] == y)
  }

  /** A new client has no open streams, has sent nothing, and knows no
      stream ids. */
  function NewClient(cfg: Config): (cl: Client)
    ensures Inverse(cl.ours, cl.theirs) && Inv(cl.conn) && !cl.conn.done
  {
    Client(Conn(cfg, H3State([], {}, []), false), map[], map[])
  }

  /** The internal id for external stream `id`: the known one, or else the
      id the H3 connection offers as next available (`nextFree`), recorded in
      both tables. */
  function Assign(ours: map<StreamId, StreamId>, theirs: map<StreamId, StreamId>,
                  id: StreamId, nextFree: StreamId): (r: (map<StreamId, StreamId>, map<StreamId, StreamId>, StreamId))
    ensures id in ours ==> r == (ours, theirs, ours[id])
    ensures id !in ours ==> r.2 == nextFree && r.0 == ours[id := nextFree] && r.1 == theirs[nextFree := id]
    ensures Inverse(ours, theirs) && (id in ours || nextFree !in theirs) ==> Inverse(r.0, r.1)
    ensures Inverse(ours, theirs) && (id in ours || nextFree !in theirs) ==> r.2 in r.1 && r.1[r.2] == id
  {
    if id in ours then (ours, theirs, ours[id])
    else (ours[id := nextFree], theirs[nextFree := id], nextFree)
  }

  /** Reusing an internal id that is already in use breaks the tables: the
      inverse property relies on the H3 connection offering a stream id not
      handed out before. */
  lemma StaleAllocationBreaksInverse(ours: map<StreamId, StreamId>, theirs: map<StreamId, StreamId>,
                                     id: StreamId, nextFree: StreamId)
    requires Inverse(ours, theirs) && id !in ours && nextFree in theirs
    ensures var r := Assign(ours, theirs, id, nextFree); !Inverse(r.0, r.1)
  {
    var x := theirs[nextFree];
    var r := Assign(ours, theirs, id, nextFree);
    assert x in ours && x != id;
    assert r.0[x] == nextFree && r.1[nextFree] == id;
  }

  datatype ClientError = StepFailed(err: StepError) | UnknownStream(streamId: StreamId)

  /** Map the stream ids of emitted HTTP events back to external ids; an
      internal id missing from `theirs` is a lookup failure. */
  function Untranslate(cmds: seq<Command>, theirs: map<StreamId, StreamId>): (r: Result<seq<Command>, ClientError>)
    ensures r.Failure? <==> exists i :: 0 <= i < |cmds| && cmds[i].ReceiveHttp? && cmds[i].event.streamId !in theirs
    ensures r.Success? ==> |r.value| == |cmds|
    ensures r.Success? ==> forall i :: 0 <= i < |cmds| ==>
      if cmds[i].ReceiveHttp? then
        r.value[i] == ReceiveHttp(cmds[i].event.(streamId := theirs[cmds[i].event.streamId]))
      else
        r.value[i] == cmds[i]
    decreases |cmds|
  {
    if |cmds| == 0 then Success([])
    else
      var c := cmds[0];
      var rest := Untranslate(cmds[1..], theirs);
      assert forall i :: 1 <= i < |cmds| ==> cmds[i] == cmds[1..][i - 1];
      if c.ReceiveHttp? && c.event.streamId !in theirs then Failure(UnknownStream(c.event.streamId))
      else if rest.Failure? then
        assert exists i :: 0 <= i < |cmds[1..]| && cmds[1..][i].ReceiveHttp? && cmds[1..][i].event.streamId !in theirs;
        rest
      else
        var head := if c.ReceiveHttp? then ReceiveHttp(c.event.(streamId := theirs[c.event.streamId])) else c;
        Success([head] + rest.value)
  }

  /** The event handed to the connection layer: HTTP events carry the
      internal stream id; everything else passes unchanged. */
  function Inward(ev: Event, internal: StreamId): (r: Event)
    ensures r.Http? <==> ev.Http?
    ensures !ev.Http? ==> r == ev
    ensures ev.Http? ==>
      && r.event.streamId == internal && r.rejectedAt == ev.rejectedAt
      && r.event.(streamId := ev.event.streamId) == ev.event
  {
    if ev.Http? then Http(ev.event.(streamId := internal), ev.rejectedAt) else ev
  }

  /** `Http3Client._handle_event`; once the connection is done the layer's
      handler is `done` itself and nothing is renumbered. `nextFree` is what
      the H3 connection reports as the next available stream id. */
  function ClientStep(cl: Client, ev: Event, nextFree: StreamId): (r: Result<(Client, seq<Command>), ClientError>)
    ensures cl.conn.done ==> (r.Failure? <==> ev.Start?)
    ensures !cl.conn.done ==>
      var a := Assign(cl.ours, cl.theirs, if ev.Http? then ev.event.streamId else 0, nextFree);
      var internal := if ev.Http? then a.2 else 0;
      var theirs := if ev.Http? then a.1 else cl.theirs;
      (r.Failure? <==> Untranslate(Step(cl.conn, Inward(ev, internal)).value.1, theirs).Failure?)
    ensures cl.conn.done ==> (r.Success? ==> r.value.0 == cl && r.value.1 == [])
    ensures r.Success? && !(ev.Http? && !cl.conn.done) ==> r.value.0.ours == cl.ours && r.value.0.theirs == cl.theirs
    ensures r.Success? && ev.Http? && !cl.conn.done ==>
      && r.value.0.ours.Keys == cl.ours.Keys + {ev.event.streamId}
      && (forall x :: x in cl.ours ==> r.value.0.ours[x] == cl.ours[x])
      && (ev.event.streamId !in cl.ours ==> r.value.0.ours[ev.event.streamId] == nextFree)
    ensures r.Success? && !cl.conn.done ==>
      var internal := if ev.Http? then r.value.0.ours[ev.event.streamId] else 0;
      var base := Step(cl.conn, Inward(ev, internal));
      && base.Success?
      && r.value.0.conn == base.value.0
      && Untranslate(base.value.1, r.value.0.theirs) == Success(r.value.1)
  {
    if cl.conn.done then
      match Step(cl.conn, ev)
      case Failure(err) => Failure(StepFailed(err))
      case Success(res) => Success((cl.(conn := res.0), res.1))
    else
      var (ours, theirs, internal) :=
        if ev.Http? then Assign(cl.ours, cl.theirs, ev.event.streamId, nextFree)
        else (cl.ours, cl.theirs, 0);
      match Step(cl.conn, Inward(ev, internal))
      case Failure(err) => Failure(StepFailed(err))
      case Success(res) =>
        match Untranslate(res.1, theirs)
        case Failure(err) => Failure(err)
        case Success(out) => Success((Client(res.0, ours, theirs), out))
  }

  /** The tables stay inverse as long as the H3 connection hands out stream
      ids not used before. */
  lemma ClientStepPreservesInverse(cl: Client, ev: Event, nextFree: StreamId)
    requires Inverse(cl.ours, cl.theirs) && nextFree !in cl.theirs
    ensures var r := ClientStep(cl, ev, nextFree);
      r.Success? ==> Inverse(r.value.0.ours, r.value.0.theirs)
  {
  }

  /** A known external id always goes down as the same internal id, and no
      table changes. */
  lemma KnownStreamKeepsItsId(cl: Client, e: HttpEvent, rejectedAt: Option<nat>, nextFree: StreamId)
    requires !cl.conn.done && e.streamId in cl.ours
    ensures var r := ClientStep(cl, Http(e, rejectedAt), nextFree);
      && r.Success?
      && r.value.0.ours == cl.ours && r.value.0.theirs == cl.theirs
      && r.value.0.conn == Step(cl.conn, Http(e.(streamId := cl.ours[e.streamId]), rejectedAt)).value.0
  {
    var base := Step(cl.conn, Http(e.(streamId := cl.ours[e.streamId]), rejectedAt));
    assert forall i :: 0 <= i < |base.value.1| ==> !base.value.1[i].ReceiveHttp?;
  }

  /** An external id seen for the first time goes down as the id the H3
      connection offered, and both tables record the pair. */
  lemma NewStreamTakesOfferedId(cl: Client, e: HttpEvent, rejectedAt: Option<nat>, nextFree: StreamId)
    requires !cl.conn.done && e.streamId !in cl.ours
    ensures var r := ClientStep(cl, Http(e, rejectedAt), nextFree);
      var base := Step(cl.conn, Http(e.(streamId := nextFree), rejectedAt));
      && r.Success?
      && r.value.0.ours == cl.ours[e.streamId := nextFree]
      && r.value.0.theirs == cl.theirs[nextFree := e.streamId]
      && r.value.0.conn == base.value.0
      && r.value.1 == base.value.1
  {
    var base := Step(cl.conn, Http(e.(streamId := nextFree), rejectedAt));
    assert forall i :: 0 <= i < |base.value.1| ==> !base.value.1[i].ReceiveHttp?;
  }

  /** A stream event whose decoded events are all on streams with an
      external id is passed up without a lookup failure. */
  lemma StreamEventOnKnownStreamsSucceeds(cl: Client, decoded: seq<H3Event>, nextFree: StreamId)
    requires !cl.conn.done
    requires forall j :: 0 <= j < |decoded| ==> decoded[j].streamId in cl.theirs
    ensures var r := ClientStep(cl, QuicStream(decoded), nextFree);
      && r.Success?
      && r.value.0.ours == cl.ours && r.value.0.theirs == cl.theirs
      && r.value.0.conn.h3 == ReceiveAll(cl.conn.config, cl.conn.h3, decoded).0
  {
  }

  /** Every HTTP event the client emits carries the external id of the stream
      the connection layer reported it on. */
  lemma EmittedIdsAreExternal(cl: Client, ev: Event, nextFree: StreamId)
    requires !cl.conn.done && Inverse(cl.ours, cl.theirs) && nextFree !in cl.theirs
    ensures var r := ClientStep(cl, ev, nextFree);
      var internal := if ev.Http? then Assign(cl.ours, cl.theirs, ev.event.streamId, nextFree).2 else 0;
      var base := Step(cl.conn, Inward(ev, internal)).value.1;
      r.Success? ==>
        && |r.value.1| == |base|
        && forall i :: 0 <= i < |base| && base[i].ReceiveHttp? ==>
             && r.value.1[i].ReceiveHttp?
             && r.value.1[i].event.streamId in r.value.0.ours
             && r.value.0.ours[r.value.1[i].event.streamId] == base[i].event.streamId
  {
  }

  /** Closing the connection while every open stream has an external id
      fails each of them under its external id and never hits an unknown
      stream. */
  lemma ClosedConnectionReportsExternalIds(cl: Client, code: int, reason: string, nextFree: StreamId)
    requires !cl.conn.done && Inv(cl.conn)
    requires forall i :: 0 <= i < |cl.conn.h3.open| ==> cl.conn.h3.open[i] in cl.theirs
    ensures var r := ClientStep(cl, ConnectionClosed(code, reason), nextFree);
      && r.Success? && r.value.0.conn.done
      && |r.value.1| == |cl.conn.h3.open|
      && forall i :: 0 <= i < |r.value.1| ==>
           r.value.1[i] == ReceiveHttp(ReceiveProtocolError(cl.theirs[cl.conn.h3.open[i]],
                                                            CloseMessage(code, reason),
                                                            cl.conn.config.receiveDefault))
  {
    ConnectionClosedFailsOpenStreams(cl.conn, code, reason);
  }
}

=== FILE: h3_connection.dfy ===
/** The sans-IO HTTP/3 connection layer (`Http3Connection`): one step takes
    the state and an incoming event and returns the new state and the
    commands to emit. The aioquic H3 connection underneath is abstract: it
    keeps the streams it reports as open, the streams that have sent
    headers, and the log of stream operations it was asked to perform. What
    aioquic itself decides (which frames it decoded, whether it refused an
    operation) arrives as part of the event. */
module Http3Connection {
  import opened Wrappers
  import opened H3Errors

  type StreamId = nat
  type Bytes = seq<bv8>
  type HeaderList = seq<(string, string)>

  // ---------------------------------------------------------------------------
  // Events and commands

  /** mitmproxy HTTP events to send over the connection; the request and
      response variants share one constructor, except for protocol errors,
      whose two classes mitmproxy tells apart. `Headers` carries the field list the
      HTTP/2 formatter produced; `httpStatus` is the error code's HTTP
      status, when it has one. */
  datatype HttpEvent =
    | Data(streamId: StreamId, data: Bytes)
    | Headers(streamId: StreamId, fields: HeaderList, endStream: bool)
    | Trailers(streamId: StreamId, fields: HeaderList)
    | EndOfMessage(streamId: StreamId)
    | ProtocolError(streamId: StreamId, message: string, code: ErrorCode,
                    httpStatus: Option<nat>, isResponse: bool)

  /** A data payload: bytes from an event, or the HTML error page for a
      status and message. */
  datatype Payload = Body(bytes: Bytes) | ErrorPage(status: nat, message: string)

  datatype CloseReason = InvalidHeaders(detail: string) | PushPromiseRefused

  /** The operations asked of the H3 connection. */
  datatype H3Op =
    | SendHeaders(streamId: StreamId, fields: HeaderList, endStream: bool)
    | SendData(streamId: StreamId, payload: Payload, endStream: bool)
    | SendTrailers(streamId: StreamId, fields: HeaderList)
    | EndStream(streamId: StreamId)
    | CloseStream(streamId: StreamId, errorCode: int)
    | CloseConnection(errorCode: int, reason: CloseReason)

  /** The outcome of parsing received headers into a request or response. */
  datatype HeadersParse = Parsed(head: HeaderList) | Invalid(detail: string)

  /** The events the H3 connection decoded from QUIC stream data. */
  datatype H3Event =
    | StreamClosed(streamId: StreamId, errorCode: int)
    | DataReceived(streamId: StreamId, data: Bytes, streamEnded: bool)
    | HeadersReceived(streamId: StreamId, parse: HeadersParse, streamEnded: bool)
    | TrailersReceived(streamId: StreamId, trailers: HeaderList, streamEnded: bool)
    | PushPromiseReceived(streamId: StreamId)

  /** The message of a received protocol error: the peer's stream reset code,
      or the connection's close reason phrase, or the name of its close code. */
  datatype ErrorMessage = ClosedByPeer(errorCode: int) | ReasonPhrase(text: string) | ErrorCodeName(errorCode: int)

  /** mitmproxy HTTP events handed up to the HTTP layer. */
  datatype Received =
    | ReceiveData(streamId: StreamId, data: Bytes)
    | ReceiveHeaders(streamId: StreamId, head: HeaderList, endStream: bool)
    | ReceiveTrailers(streamId: StreamId, trailers: HeaderList)
    | ReceiveEndOfMessage(streamId: StreamId)
    | ReceiveProtocolError(streamId: StreamId, message: ErrorMessage, code: ErrorCode)

  /** Commands the layer emits: an event for the HTTP layer, a flush of the
      H3 connection's buffered data, or a log line about a refused event. */
  datatype Command = ReceiveHttp(event: Received) | Transmit | LogUnexpected(unexpected: HttpEvent)

  /** Incoming events. `rejectedAt` is the position of the stream operation
      the H3 connection refused with FrameUnexpected, if any; `decoded` is
      what the H3 connection made of a QUIC stream event. */
  datatype Event =
    | Start
    | Http(event: HttpEvent, rejectedAt: Option<nat>)
    | QuicStream(decoded: seq<H3Event>)
    | ConnectionClosed(errorCode: int, reasonPhrase: string)

  // ---------------------------------------------------------------------------
  // State

  /** `receiveDefault` is the code of the receiving side's protocol-error
      event class; `serverBanner` is mitmproxy's version string. */
  datatype Config = Config(receiveDefault: ErrorCode, serverBanner: string)

  datatype H3State = H3State(open: seq<StreamId>, headersSent: set<StreamId>, issued: seq<H3Op>)

  /** `done` is set once the connection has closed: from then on the layer
      handles events with `done` instead of `_handle_event`. */
  datatype Conn = Conn(config: Config, h3: H3State, done: bool)

  predicate NoDup(s: seq<StreamId>)
  {
    forall i, j :: 0 <= i < j < |s| ==> s[i] != s[j]
  }

  /** The layer's invariant: each open stream is listed once. */
  predicate Inv(c: Conn)
  {
    NoDup(c.h3.open)
  }

  /** The open streams with `id` added. */
  function Opened(open: seq<StreamId>, id: StreamId): (r: seq<StreamId>)
    ensures forall x :: x in r <==> x in open || x == id
    ensures NoDup(open) ==> NoDup(r)
  {
    if id in open then open else open + [id]
  }

  lemma NoDupTail(s: seq<StreamId>)
    requires |s| >= 1
    ensures NoDup(s) ==> NoDup(s[1..]) && s[0] !in s[1..]
  {
    if NoDup(s) {
      forall i, j | 0 <= i < j < |s[1..]| ensures s[1..][i] != s[1..][j] {
        assert s[1..][i] == s[i + 1] && s[1..][j] == s[j + 1];
      }
      forall k | 0 <= k < |s[1..]| ensures s[1..][k] != s[0] {
        assert s[1..][k] == s[k + 1];
      }
    }
  }

  /** The open streams with `id` removed. */
  function Without(open: seq<StreamId>, id: StreamId): (r: seq<StreamId>)
    ensures forall x :: x in r <==> x in open && x != id
    ensures NoDup(open) ==> NoDup(r)
    decreases |open|
  {
    if |open| == 0 then []
    else
      var rest := Without(open[1..], id);
      assert forall x :: x in open <==> x == open[0] || x in open[1..];
      NoDupTail(open);
      if open[0] == id then rest else [open[0]] + rest
  }

  /** The abstract effect of one operation on the H3 connection: it is
      logged; sending headers marks the stream as having sent headers and
      opens it; closing a stream removes it from the open streams. */
  function ApplyOp(h: H3State, op: H3Op): (r: H3State)
    ensures r.issued == h.issued + [op]
    ensures NoDup(h.open) ==> NoDup(r.open)
  {
    var h' := h.(issued := h.issued + [op]);
    match op
    case SendHeaders(id, _, _) => h'.(headersSent := h.headersSent + {id}, open := Opened(h.open, id))
    case CloseStream(id, _) => h'.(open := Without(h.open, id))
    case _ => h'
  }

  function ApplyOps(h: H3State, ops: seq<H3Op>): (r: H3State)
    ensures r.issued == h.issued + ops
    ensures NoDup(h.open) ==> NoDup(r.open)
    decreases |ops|
  {
    if |ops| == 0 then h
    else
      var r := ApplyOps(ApplyOp(h, ops[0]), ops[1..]);
      assert h.issued + [ops[0]] + ops[1..] == h.issued + ops;
      r
  }

  // ---------------------------------------------------------------------------
  // Sending mitmproxy events

  function DigitChar(d: nat): char
    requires d < 10
  {
    "0123456789"[d]
  }

  /** `"%d" % n`: decimal digits, a single one exactly below ten, and no
      leading zero. */
  function Decimal(n: nat): (s: string)
    ensures |s| >= 1 && forall i :: 0 <= i < |s| ==> '0' <= s[i] <= '9'
    ensures |s| == 1 <==> n < 10
    ensures s[0] == '0' ==> n == 0
  {
    if n < 10 then [DigitChar(n)] else Decimal(n / 10) + [DigitChar(n % 10)]
  }

  /** The number a string of decimal digits denotes. */
  function DecimalValue(s: string): nat
    requires forall i :: 0 <= i < |s| ==> '0' <= s[i] <= '9'
  {
    if |s| == 0 then 0 else DecimalValue(s[..|s| - 1]) * 10 + (s[|s| - 1] as int - '0' as int)
  }

  /** The `:status` value written for a status reads back as that status. */
  lemma {:induction false} DecimalRoundTrip(n: nat)
    ensures DecimalValue(Decimal(n)) == n
  {
    var s := Decimal(n);
    DigitValue(n % 10);
    if n >= 10 {
      DecimalRoundTrip(n / 10);
      assert s == Decimal(n / 10) + [DigitChar(n % 10)];
      assert s[..|s| - 1] == Decimal(n / 10);
    }
  }

  lemma DigitValue(d: nat)
    requires d < 10
    ensures DigitChar(d) as int - '0' as int == d
  {
  }

  /** The header block of an error response: the status, which reads back
      as itself, the server banner and the HTML content type. */
  function ErrorHeaders(status: nat, banner: string): (fields: HeaderList)
    ensures |fields| == 3 && fields[0].0 == ":status"
    ensures (forall i :: 0 <= i < |fields[0].1| ==> '0' <= fields[0].1[i] <= '9')
    ensures DecimalValue(fields[0].1) == status
    ensures fields[1] == ("server", banner) && fields[2] == ("content-type", "text/html")
  {
    DecimalRoundTrip(status);
    [(":status", Decimal(status)), ("server", banner), ("content-type", "text/html")]
  }

  /** An error that is answered with an error page rather than a reset: a
      response-side error with an HTTP status on a stream that has not sent
      headers yet. */
  predicate AnswersWithPage(h: H3State, e: HttpEvent): (b: bool)
    ensures b ==> e.ProtocolError? && e.httpStatus.Some? && e.streamId !in h.headersSent
    ensures e.ProtocolError? && !e.isResponse ==> !b
  {
    e.ProtocolError? && e.isResponse && e.streamId !in h.headersSent && e.httpStatus.Some?
  }

  /** The stream operations an HTTP event turns into: one or two, all on the
      event's own stream, never closing the whole connection; a stream is
      reset exactly for a protocol error that is not answered with a page,
      and then the reset is the only operation. Data, headers, trailers and
      end-of-message each become the one matching send on the H3 connection,
      with the event's payload: data never ends the stream, headers end it as
      the event says. */
  function PlannedOps(cfg: Config, h: H3State, e: HttpEvent): (ops: seq<H3Op>)
    ensures e.Data? ==> ops == [SendData(e.streamId, Body(e.data), false)]
    ensures e.Headers? ==> ops == [SendHeaders(e.streamId, e.fields, e.endStream)]
    ensures e.Trailers? ==> ops == [SendTrailers(e.streamId, e.fields)]
    ensures e.EndOfMessage? ==> ops == [EndStream(e.streamId)]
    ensures 1 <= |ops| <= 2
    ensures forall k :: 0 <= k < |ops| ==> !ops[k].CloseConnection? && ops[k].streamId == e.streamId
    ensures ops[0].CloseStream? <==> (e.ProtocolError? && !AnswersWithPage(h, e))
    ensures forall k :: 0 < k < |ops| ==> !ops[k].CloseStream?
    ensures e.ProtocolError? && !AnswersWithPage(h, e) ==> |ops| == 1
    ensures |ops| == 2 <==> AnswersWithPage(h, e)
  {
    match e
    case Data(id, data) => [SendData(id, Body(data), false)]
    case Headers(id, fields, end) => [SendHeaders(id, fields, end)]
    case Trailers(id, fields) => [SendTrailers(id, fields)]
    case EndOfMessage(id) => [EndStream(id)]
    case ProtocolError(id, msg, code, status, _) =>
      if AnswersWithPage(h, e) then
        [SendHeaders(id, ErrorHeaders(status.value, cfg.serverBanner), false),
         SendData(id, ErrorPage(status.value, msg), true)]
      else
        [CloseStream(id, ToH3(code))]
  }

  /** Handling an HTTP event: its operations are performed in order; if the
      H3 connection refuses one, the ones before it stay done, only a log
      line is emitted and nothing is transmitted; otherwise the buffered
      data is transmitted. */
  function HandleHttp(c: Conn, e: HttpEvent, rejectedAt: Option<nat>): (r: (Conn, seq<Command>))
    ensures r.0.config == c.config && r.0.done == c.done
    ensures Inv(c) ==> Inv(r.0)
    ensures var ops := PlannedOps(c.config, c.h3, e);
      if rejectedAt.Some? && rejectedAt.value < |ops| then
        r.1 == [LogUnexpected(e)] && r.0.h3.issued == c.h3.issued + ops[..rejectedAt.value]
      else
        r.1 == [Transmit] && r.0.h3.issued == c.h3.issued + ops
  {
    var ops := PlannedOps(c.config, c.h3, e);
    if rejectedAt.Some? && rejectedAt.value < |ops| then
      (c.(h3 := ApplyOps(c.h3, ops[..rejectedAt.value])), [LogUnexpected(e)])
    else
      (c.(h3 := ApplyOps(c.h3, ops)), [Transmit])
  }

  /** A response-side error with a status, on a stream that has not sent
      headers, is answered with an error response: `:status`, `server` and
      `content-type: text/html` headers, then the error page ending the
      stream. The stream is not reset, and the status reads back. */
  lemma ErrorPageInsteadOfReset(c: Conn, e: HttpEvent)
    requires e.ProtocolError? && e.isResponse && e.httpStatus.Some?
    requires e.streamId !in c.h3.headersSent
    ensures var r := HandleHttp(c, e, None);
      && r.1 == [Transmit]
      && r.0.h3.issued == c.h3.issued + [
           SendHeaders(e.streamId, ErrorHeaders(e.httpStatus.value, c.config.serverBanner), false),
           SendData(e.streamId, ErrorPage(e.httpStatus.value, e.message), true)]
      && (forall k :: |c.h3.issued| <= k < |r.0.h3.issued| ==> !r.0.h3.issued[k].CloseStream?)
      && e.streamId in r.0.h3.headersSent
      && DecimalValue(ErrorHeaders(e.httpStatus.value, c.config.serverBanner)[0].1) == e.httpStatus.value
  {
    DecimalRoundTrip(e.httpStatus.value);
    var ops := PlannedOps(c.config, c.h3, e);
    var h1 := ApplyOp(c.h3, ops[0]);
    assert e.streamId in h1.headersSent;
    assert ApplyOps(c.h3, ops) == ApplyOps(h1, ops[1..]);
    assert ApplyOps(h1, ops[1..]) == ApplyOps(ApplyOp(h1, ops[1]), []);
  }

  /** Every other protocol error resets the stream with the mapped HTTP/3
      code and nothing else, and the stream is no longer open. */
  lemma ResetWithMappedCode(c: Conn, e: HttpEvent)
    requires e.ProtocolError? && !AnswersWithPage(c.h3, e)
    ensures var r := HandleHttp(c, e, None);
      && r.1 == [Transmit]
      && r.0.h3.issued == c.h3.issued + [CloseStream(e.streamId, ToH3(e.code))]
      && e.streamId !in r.0.h3.open
  {
    var ops := PlannedOps(c.config, c.h3, e);
    assert ops == [CloseStream(e.streamId, ToH3(e.code))];
    assert ApplyOps(c.h3, ops) == ApplyOps(ApplyOp(c.h3, ops[0]), []);
  }

  // ---------------------------------------------------------------------------
  // Receiving from the H3 connection

  /** The events for a received block, followed by an end-of-message event
      exactly when the stream ended. */
  function ThenEnd(first: seq<Received>, id: StreamId, ended: bool): seq<Received>
  {
    first + (if ended then [ReceiveEndOfMessage(id)] else [])
  }

  /** The events for received data: a data event only for non-empty data,
      an end-of-message event only when the stream ended, data first. */
  function DataEvents(id: StreamId, data: Bytes, ended: bool): (out: seq<Received>)
    ensures (exists i :: 0 <= i < |out| && out[i].ReceiveData?) <==> |data| > 0
    ensures (exists i :: 0 <= i < |out| && out[i].ReceiveEndOfMessage?) <==> ended
    ensures forall i :: 0 <= i < |out| ==> out[i].streamId == id
    ensures forall i :: 0 <= i < |out| && out[i].ReceiveData? ==> out[i].data == data && i == 0
    ensures ended ==> out[|out| - 1] == ReceiveEndOfMessage(id)
    ensures |out| == (if |data| > 0 then 1 else 0) + (if ended then 1 else 0)
  {
    var out := ThenEnd(if |data| > 0 then [ReceiveData(id, data)] else [], id, ended);
    assert |data| > 0 ==> out[0].ReceiveData?;
    assert ended ==> out[|out| - 1].ReceiveEndOfMessage?;
    out
  }

  /** The events for received trailers: the trailers, then end-of-message
      exactly when the stream ended. */
  function TrailerEvents(id: StreamId, trailers: HeaderList, ended: bool): (out: seq<Received>)
    ensures |out| >= 1 && out[0] == ReceiveTrailers(id, trailers)
    ensures (exists i :: 0 <= i < |out| && out[i].ReceiveEndOfMessage?) <==> ended
    ensures forall i :: 0 <= i < |out| ==> out[i].streamId == id
    ensures |out| == (if ended then 2 else 1)
  {
    var out := ThenEnd([ReceiveTrailers(id, trailers)], id, ended);
    assert ended ==> out[1].ReceiveEndOfMessage?;
    out
  }

  /** The events for valid received headers: one headers event (carrying the
      end-of-stream flag), then end-of-message exactly when the stream ended. */
  function HeaderEvents(id: StreamId, head: HeaderList, ended: bool): (out: seq<Received>)
    ensures |out| >= 1 && out[0] == ReceiveHeaders(id, head, ended)
    ensures (exists i :: 0 <= i < |out| && out[i].ReceiveEndOfMessage?) <==> ended
    ensures forall i :: 0 <= i < |out| ==> out[i].streamId == id
    ensures |out| == (if ended then 2 else 1)
  {
    var out := ThenEnd([ReceiveHeaders(id, head, ended)], id, ended);
    assert ended ==> out[1].ReceiveEndOfMessage?;
    out
  }

  function AsCommands(events: seq<Received>): (cmds: seq<Command>)
    ensures |cmds| == |events|
    ensures forall i :: 0 <= i < |events| ==> cmds[i] == ReceiveHttp(events[i])
  {
    seq(|events|, i requires 0 <= i < |events| => ReceiveHttp(events[i]))
  }

  /** A stream on which something was received is open. */
  function Touch(h: H3State, id: StreamId): H3State
  {
    h.(open := Opened(h.open, id))
  }

  /** Handling one decoded H3 event. */
  function ReceiveOne(cfg: Config, h: H3State, ev: H3Event): (r: (H3State, seq<Command>))
    ensures NoDup(h.open) ==> NoDup(r.0.open)
    ensures forall i :: 0 <= i < |r.1| ==> r.1[i].ReceiveHttp? && r.1[i].event.streamId == ev.streamId
    ensures ev.DataReceived? ==>
      r == (Touch(h, ev.streamId), AsCommands(DataEvents(ev.streamId, ev.data, ev.streamEnded)))
    ensures ev.HeadersReceived? && ev.parse.Parsed? ==>
      r == (Touch(h, ev.streamId), AsCommands(HeaderEvents(ev.streamId, ev.parse.head, ev.streamEnded)))
    ensures ev.TrailersReceived? ==>
      r == (Touch(h, ev.streamId), AsCommands(TrailerEvents(ev.streamId, ev.trailers, ev.streamEnded)))
    ensures ev.PushPromiseReceived? ==>
      r == (ApplyOp(h, CloseConnection(H3_GENERAL_PROTOCOL_ERROR, PushPromiseRefused)), [])
  {
    match ev
    case StreamClosed(id, code) =>
      (h.(open := Without(h.open, id)),
       [ReceiveHttp(ReceiveProtocolError(id, ClosedByPeer(code), FromH3(code, cfg.receiveDefault)))])
    case DataReceived(id, data, ended) =>
      (Touch(h, id), AsCommands(DataEvents(id, data, ended)))
    case HeadersReceived(id, Invalid(detail), _) =>
      (ApplyOp(h, CloseConnection(H3_GENERAL_PROTOCOL_ERROR, InvalidHeaders(detail))), [])
    case HeadersReceived(id, Parsed(head), ended) =>
      (Touch(h, id), AsCommands(HeaderEvents(id, head, ended)))
    case TrailersReceived(id, trailers, ended) =>
      (Touch(h, id), AsCommands(TrailerEvents(id, trailers, ended)))
    case PushPromiseReceived(_) =>
      (ApplyOp(h, CloseConnection(H3_GENERAL_PROTOCOL_ERROR, PushPromiseRefused)), [])
  }

  /** Headers that fail to parse close the whole connection with
      H3_GENERAL_PROTOCOL_ERROR and produce no event. */
  lemma InvalidHeadersCloseConnection(cfg: Config, h: H3State, id: StreamId, detail: string, ended: bool)
    ensures var r := ReceiveOne(cfg, h, HeadersReceived(id, Invalid(detail), ended));
      r.1 == [] && r.0.issued == h.issued + [CloseConnection(H3_GENERAL_PROTOCOL_ERROR, InvalidHeaders(detail))]
  {
  }

  /** A peer's stream reset is reported as a protocol error on that stream
      whose code is the reset code read back, and the stream is closed. */
  lemma StreamClosedReported(cfg: Config, h: H3State, id: StreamId, code: int)
    ensures var r := ReceiveOne(cfg, h, StreamClosed(id, code));
      && r.1 == [ReceiveHttp(ReceiveProtocolError(id, ClosedByPeer(code), FromH3(code, cfg.receiveDefault)))]
      && id !in r.0.open
  {
  }

  /** Handling all decoded events in order; a single event is handled as
      by `ReceiveOne`. */
  function ReceiveAll(cfg: Config, h: H3State, evs: seq<H3Event>): (r: (H3State, seq<Command>))
    ensures NoDup(h.open) ==> NoDup(r.0.open)
    ensures forall i :: 0 <= i < |r.1| ==> r.1[i].ReceiveHttp?
    ensures forall i :: 0 <= i < |r.1| ==> exists j :: 0 <= j < |evs| && evs[j].streamId == r.1[i].event.streamId
    ensures |evs| == 0 ==> r == (h, [])
    ensures |evs| == 1 ==> r == ReceiveOne(cfg, h, evs[0])
    decreases |evs|
  {
    if |evs| == 0 then (h, [])
    else
      var (h1, out1) := ReceiveOne(cfg, h, evs[0]);
      var (h2, out2) := ReceiveAll(cfg, h1, evs[1..]);
      assert |evs| == 1 ==> h2 == h1 && out1 + out2 == out1;
      (h2, out1 + out2)
  }

  /** Handling `a + b` is handling `a`, then handling `b` from the state `a`
      left: the commands of the two runs are concatenated in order. */
  lemma {:induction false} ReceiveAllConcat(cfg: Config, h: H3State, a: seq<H3Event>, b: seq<H3Event>)
    ensures var ra := ReceiveAll(cfg, h, a);
      var rb := ReceiveAll(cfg, ra.0, b);
      ReceiveAll(cfg, h, a + b) == (rb.0, ra.1 + rb.1)
    decreases |a|
  {
    if |a| == 0 {
      assert a + b == b;
      assert [] + ReceiveAll(cfg, h, b).1 == ReceiveAll(cfg, h, b).1;
    } else {
      var r1 := ReceiveOne(cfg, h, a[0]);
      assert (a + b)[1..] == a[1..] + b;
      ReceiveAllConcat(cfg, r1.0, a[1..], b);
      ConcatThree(r1.1, ReceiveAll(cfg, r1.0, a[1..]).1, ReceiveAll(cfg, ReceiveAll(cfg, r1.0, a[1..]).0, b).1);
    }
  }

  /** Concatenation is associative. */
  lemma ConcatThree(x: seq<Command>, y: seq<Command>, z: seq<Command>)
    ensures x + (y + z) == (x + y) + z
  {
  }

  /** The commands for a closed connection: one protocol error per open
      stream, in the order the streams are listed. */
  function FailOpenStreams(open: seq<StreamId>, msg: ErrorMessage, code: ErrorCode): (cmds: seq<Command>)
  {
    seq(|open|, i requires 0 <= i < |open| => ReceiveHttp(ReceiveProtocolError(open[i], msg, code)))
  }

  /** The message for a closed connection: its reason phrase, or failing
      that the name of its error code. */
  function CloseMessage(errorCode: int, reasonPhrase: string): (m: ErrorMessage)
    ensures m.ReasonPhrase? <==> reasonPhrase != ""
    ensures m.ReasonPhrase? ==> m.text == reasonPhrase
    ensures m.ErrorCodeName? ==> m.errorCode == errorCode
  {
    if reasonPhrase != "" then ReasonPhrase(reasonPhrase) else ErrorCodeName(errorCode)
  }

  datatype StepError = UnexpectedEvent

  /** `_handle_event`, or `done` once the connection has closed. */
  function Step(c: Conn, ev: Event): (r: Result<(Conn, seq<Command>), StepError>)
    ensures r.Failure? <==> c.done && ev.Start?
    ensures Inv(c) && r.Success? ==> Inv(r.value.0)
    ensures r.Success? ==> r.value.0.config == c.config
    ensures c.done && r.Success? ==> r.value == (c, [])
    ensures !c.done && ev.QuicStream? ==>
      r.Success? && |r.value.1| >= 1 && r.value.1[|r.value.1| - 1] == Transmit
    ensures !c.done && ev.Start? ==> r == Success((c, [Transmit]))
    ensures !c.done && ev.Http? ==> r == Success(HandleHttp(c, ev.event, ev.rejectedAt))
    ensures !c.done && ev.QuicStream? ==>
      var received := ReceiveAll(c.config, c.h3, ev.decoded);
      r == Success((c.(h3 := received.0), received.1 + [Transmit]))
  {
    if c.done then
      if ev.Start? then Failure(UnexpectedEvent) else Success((c, []))
    else
      match ev
      case Start => Success((c, [Transmit]))
      case Http(e, rejectedAt) => Success(HandleHttp(c, e, rejectedAt))
      case QuicStream(decoded) =>
        var (h, out) := ReceiveAll(c.config, c.h3, decoded);
        Success((c.(h3 := h), out + [Transmit]))
      case ConnectionClosed(code, reason) =>
        Success((c.(done := true),
                 FailOpenStreams(c.h3.open, CloseMessage(code, reason), c.config.receiveDefault)))
  }

  /** Closing the connection fails every open stream exactly once, with the
      reason phrase (or the code's name) and the receiving side's default
      code, and makes the layer done. */
  lemma ConnectionClosedFailsOpenStreams(c: Conn, code: int, reason: string)
    requires Inv(c) && !c.done
    ensures var r := Step(c, ConnectionClosed(code, reason));
      && r.Success? && r.value.0.done && r.value.0.h3 == c.h3
      && |r.value.1| == |c.h3.open|
      && (forall i :: 0 <= i < |r.value.1| ==>
            r.value.1[i] == ReceiveHttp(ReceiveProtocolError(c.h3.open[i], CloseMessage(code, reason), c.config.receiveDefault)))
      && (forall id :: id in c.h3.open ==>
            exists i :: 0 <= i < |r.value.1| && r.value.1[i].event.streamId == id)
      && (forall i, j :: 0 <= i < j < |r.value.1| ==> r.value.1[i].event.streamId != r.value.1[j].event.streamId)
  {
    var out := Step(c, ConnectionClosed(code, reason)).value.1;
    forall id | id in c.h3.open
      ensures exists i :: 0 <= i < |out| && out[i].event.streamId == id
    {
      var i :| 0 <= i < |c.h3.open| && c.h3.open[i] == id;
      assert out[i].event.streamId == id;
    }
  }

  /** Running a sequence of events, stopping at the first failure. */
  function Run(c: Conn, evs: seq<Event>): Result<(Conn, seq<Command>), StepError>
    decreases |evs|
  {
    if |evs| == 0 then Success((c, []))
    else
      var first := Step(c, evs[0]);
      if first.Failure? then Failure(first.error)
      else
        var rest := Run(first.value.0, evs[1..]);
        if rest.Failure? then Failure(rest.error)
        else Success((rest.value.0, first.value.1 + rest.value.1))
  }

  /** Once done, the layer stays done and emits nothing for any later HTTP,
      stream or close event. */
  lemma {:induction false} DoneIsFinal(c: Conn, evs: seq<Event>)
    requires c.done
    requires forall i :: 0 <= i < |evs| ==> !evs[i].Start?
    ensures Run(c, evs) == Success((c, []))
    decreases |evs|
  {
    if |evs| > 0 {
      assert !evs[0].Start?;
      assert Step(c, evs[0]) == Success((c, []));
      DoneIsFinal(c, evs[1..]);
      assert Run(c, evs[1..]) == Success((c, []));
      var none: seq<Command> := [];
      assert none + none == none;
      assert Run(c, evs) == Success((c, none + none));
    }
  }
}

=== FILE: h3_errors.dfy ===
/** The translation between mitmproxy's HTTP error codes and the HTTP/3
    application error codes of section 8.1 of RFC 9114, in both directions. */
module H3Errors {

  /** mitmproxy's `ErrorCode`: why an HTTP exchange was aborted. */
  datatype ErrorCode =
    | GenericClientError
    | GenericServerError
    | RequestTooLarge
    | ResponseTooLarge
    | ConnectFailed
    | PassthroughClose
    | Kill
    | Http11Required
    | DestinationUnknown
    | ClientDisconnected
    | Cancel
    | RequestValidationFailed
    | ResponseValidationFailed

  /** HTTP/3 error codes used here (section 8.1 of RFC 9114). */
  const H3_GENERAL_PROTOCOL_ERROR: int := 0x0101
  const H3_INTERNAL_ERROR: int := 0x0102
  const H3_REQUEST_CANCELLED: int := 0x010c
  const H3_VERSION_FALLBACK: int := 0x0110

  /** The codes that mean "the peer gave up on the request". */
  predicate IsCancellation(c: ErrorCode)
  {
    c == Cancel || c == ClientDisconnected || c == PassthroughClose
  }

  /** The HTTP/3 code a stream is reset with when mitmproxy aborts it. The
      mapping is total: cancellations become H3_REQUEST_CANCELLED, the
      HTTP/1.1 downgrade becomes H3_VERSION_FALLBACK, and every other code
      (kill, generic, too-large, connect and validation failures) becomes
      H3_INTERNAL_ERROR. */
  function ToH3(c: ErrorCode): (code: int)
    ensures code == H3_REQUEST_CANCELLED <==> IsCancellation(c)
    ensures code == H3_VERSION_FALLBACK <==> c == Http11Required
    ensures code == H3_INTERNAL_ERROR <==> !IsCancellation(c) && c != Http11Required
  {
    match c
    case Cancel | ClientDisconnected => H3_REQUEST_CANCELLED
    case Kill => H3_INTERNAL_ERROR
    case Http11Required => H3_VERSION_FALLBACK
    case PassthroughClose => H3_REQUEST_CANCELLED
    case GenericClientError | GenericServerError | RequestTooLarge | ResponseTooLarge
       | ConnectFailed | DestinationUnknown | RequestValidationFailed | ResponseValidationFailed =>
      H3_INTERNAL_ERROR
  }

  /** The code reported for a stream the peer closed: cancellation and
      version fallback are recognised, anything else gets `fallback`, the
      receiving side's default protocol-error code. */
  function FromH3(code: int, fallback: ErrorCode): (c: ErrorCode)
    ensures c == Cancel || c == Http11Required || c == fallback
    ensures code == H3_REQUEST_CANCELLED ==> c == Cancel
    ensures code == H3_VERSION_FALLBACK ==> c == Http11Required
    ensures code != H3_REQUEST_CANCELLED && code != H3_VERSION_FALLBACK ==> c == fallback
  {
    if code == H3_REQUEST_CANCELLED then Cancel
    else if code == H3_VERSION_FALLBACK then Http11Required
    else fallback
  }

  /** What survives a reset followed by reading the reset back: every
      cancellation reads back as `Cancel`, the downgrade as itself, and
      everything else as the receiver's default. */
  lemma RoundTrip(c: ErrorCode, fallback: ErrorCode)
    ensures FromH3(ToH3(c), fallback) ==
      (if IsCancellation(c) then Cancel else if c == Http11Required then Http11Required else fallback)
  {
  }

  /** Exactly `Cancel` and `Http11Required` survive the round trip whatever
      the receiver's default is. */
  lemma RoundTripIdentity(c: ErrorCode)
    ensures (forall fallback :: FromH3(ToH3(c), fallback) == c) <==> c == Cancel || c == Http11Required
  {
    if c != Cancel && c != Http11Required {
      var other := if c == Kill then GenericClientError else Kill;
      RoundTrip(c, other);
    }
  }
}

=== FILE: labels.dfy ===
/** Python's `str.split(".")` and `".".join(...)` on domain names, with the
    facts about them the wildcard lookup keys rely on. */
module Labels {

  /** The number of label separators in `s`. */
  function CountDots(s: string): nat
  {
    if |s| == 0 then 0 else (if s[0] == '.' then 1 else 0) + CountDots(s[1..])
  }

  /** `s.split(".")`: never empty, one more part than there are dots, and no
      part contains a dot (empty parts included, as in Python). */
  function Split(s: string): (parts: seq<string>)
    ensures |parts| == CountDots(s) + 1
    ensures forall i :: 0 <= i < |parts| ==> '.' !in parts[i]
    decreases |s|
  {
    if |s| == 0 then [""]
    else
      var rest := Split(s[1..]);
      if s[0] == '.' then [""] + rest
      else
        assert '.' !in rest[0];
        [[s[0]] + rest[0]] + rest[1..]
  }

  /** `".".join(parts)` for a non-empty list of parts: it starts with the
      first part, followed by a dot when there are more. */
  function Join(parts: seq<string>): (r: string)
    requires |parts| >= 1
    ensures |r| >= |parts[0]| && r[..|parts[0]|] == parts[0]
    ensures |parts| > 1 ==> |r| > |parts[0]| && r[|parts[0]|] == '.'
    decreases |parts|
  {
    if |parts| == 1 then parts[0] else parts[0] + "." + Join(parts[1..])
  }

  /** Joining the parts of a split gives back the original string. */
  lemma {:induction false} JoinSplit(s: string)
    ensures Join(Split(s)) == s
    decreases |s|
  {
    if |s| == 0 {
    } else {
      var rest := Split(s[1..]);
      JoinSplit(s[1..]);
      if s[0] == '.' {
        assert Split(s) == [""] + rest;
        assert (Split(s))[1..] == rest;
        assert Join(Split(s)) == "" + "." + Join(rest);
        assert s == [s[0]] + s[1..];
      } else if |rest| == 1 {
        assert Split(s) == [[s[0]] + rest[0]];
        assert s == [s[0]] + s[1..];
      } else {
        var p := Split(s);
        assert p == [[s[0]] + rest[0]] + rest[1..];
        assert p[1..] == rest[1..];
        assert Join(rest) == rest[0] + "." + Join(rest[1..]);
        assert s == [s[0]] + s[1..];
      }
    }
  }

  /** A string without dots splits into itself. */
  lemma {:induction false} SplitNoDots(a: string)
    requires '.' !in a
    ensures Split(a) == [a]
    decreases |a|
  {
    if |a| > 0 {
      assert '.' !in a[1..] by {
        forall k | 0 <= k < |a[1..]| ensures a[1..][k] != '.' {
          assert a[1..][k] == a[k + 1];
        }
      }
      SplitNoDots(a[1..]);
      assert [a[0]] + a[1..] == a;
    }
  }

  /** A dot-free head label followed by a dot splits off as the first part. */
  lemma {:induction false} SplitDotConcat(a: string, t: string)
    requires '.' !in a
    ensures Split(a + "." + t) == [a] + Split(t)
    decreases |a|
  {
    var s := a + "." + t;
    if |a| == 0 {
      assert s == "." + t;
      assert s[1..] == t;
    } else {
      assert s[0] == a[0];
      assert s[1..] == a[1..] + "." + t;
      assert '.' !in a[1..] by {
        forall k | 0 <= k < |a[1..]| ensures a[1..][k] != '.' {
          assert a[1..][k] == a[k + 1];
        }
      }
      SplitDotConcat(a[1..], t);
      assert [a[0]] + a[1..] == a;
    }
  }

  /** Splitting a join of dot-free parts gives back the parts. */
  lemma {:induction false} SplitJoin(parts: seq<string>)
    requires |parts| >= 1
    requires forall i :: 0 <= i < |parts| ==> '.' !in parts[i]
    ensures Split(Join(parts)) == parts
    decreases |parts|
  {
    if |parts| == 1 {
      SplitNoDots(parts[0]);
    } else {
      SplitJoin(parts[1..]);
      SplitDotConcat(parts[0], Join(parts[1..]));
      assert [parts[0]] + parts[1..] == parts;
    }
  }

  /** A join splits at any inner part boundary. */
  lemma {:induction false} JoinAt(parts: seq<string>, i: nat)
    requires 0 < i < |parts|
    ensures Join(parts) == Join(parts[..i]) + "." + Join(parts[i..])
    decreases i
  {
    if i == 1 {
      assert parts[..1] == [parts[0]];
      assert parts[1..] == parts[i..];
    } else {
      JoinAt(parts[1..], i - 1);
      assert parts[1..][..i - 1] == parts[1..i];
      assert parts[1..][i - 1..] == parts[i..];
      assert parts[..i][1..] == parts[1..i];
      assert parts[..i][0] == parts[0];
    }
  }
}

=== FILE: store_files.dfy ===
/** What `create_store` writes and what `from_store` / `from_files` read
    back: file names, the defaults for the CA's subject, and which artifact
    each file holds. File contents are named, not encoded. */
module StoreFiles {
  import opened Wrappers
  import opened Certificates
  import opened CertStore

  /** Python's `value or fallback` for an optional string: `None` and the
      empty string both fall back. */
  function OrDefault(value: Option<string>, fallback: string): (r: string)
    ensures value.Some? && value.value != "" ==> r == value.value
    ensures value.None? || value.value == "" ==> r == fallback
    ensures r == "" ==> fallback == ""
  {
    if value.Some? && value.value != "" then value.value else fallback
  }

  /** What a file of the store directory holds. */
  datatype Artifact =
    | CaKeyAndCertPem   // private key followed by the CA certificate, PEM
    | CaKeyAndCertP12   // private key and CA certificate, PKCS#12
    | CaCertPem         // CA certificate alone, PEM
    | CaCertP12         // CA certificate alone, PKCS#12
    | DhParams          // the built-in Diffie-Hellman parameters

  datatype StoredFile = StoredFile(name: string, content: Artifact)

  /** The CA created for a new store and the files written for it, in the
      order they are written. */
  datatype CreatedStore = CreatedStore(ca: Cert, files: seq<StoredFile>)


  /** The content recorded for the first file called `name`, if any. */
  function ContentOf(files: seq<StoredFile>, name: string): Option<Artifact>
  {
    if |files| == 0 then None
    else if files[0].name == name then Some(files[0].content)
    else ContentOf(files[1..], name)
  }

  predicate DistinctNames(files: seq<StoredFile>)
  {
    forall i, j :: 0 <= i < j < |files| ==> files[i].name != files[j].name
  }

  /** With distinct names, every written file is found with its content. */
  lemma {:induction false} ContentOfDistinct(files: seq<StoredFile>, i: nat)
    requires DistinctNames(files) && i < |files|
    ensures ContentOf(files, files[i].name) == Some(files[i].content)
    decreases i
  {
    if i > 0 {
      assert files[0].name != files[i].name;
      assert files[1..][i - 1] == files[i];
      ContentOfDistinct(files[1..], i - 1);
    }
  }

  lemma {:induction false} PrefixCancel(b: string, x: string, y: string)
    requires b + x == b + y
    ensures x == y
  {
    assert x == (b + x)[|b|..];
    assert y == (b + y)[|b|..];
  }

  /** The file-name suffixes `create_store` writes, in writing order, and
      what each file holds. */
  const FileSuffixes: seq<string> :=
    ["-ca.pem", "-ca.p12", "-ca-cert.pem", "-ca-cert.cer", "-ca-cert.p12", "-dhparam.pem"]
  const FileContents: seq<Artifact> :=
    [CaKeyAndCertPem, CaKeyAndCertP12, CaCertPem, CaCertPem, CaCertP12, DhParams]

  lemma SuffixesDistinct()
    ensures forall i, j :: 0 <= i < j < |FileSuffixes| ==> FileSuffixes[i] != FileSuffixes[j]
  {
    var x := FileSuffixes;
    assert x[0][5] != x[1][5];
    assert x[2][9] != x[3][9] && x[2][10] != x[4][10] && x[3][9] != x[4][9];
    assert x[2][1] != x[5][1] && x[3][1] != x[5][1] && x[4][1] != x[5][1];
  }

  /** The files of a store directory: six pairwise distinct names, each the
      basename followed by a dash and a suffix. */
  function StoreFileList(basename: string): (files: seq<StoredFile>)
    ensures |files| == 6 && DistinctNames(files)
    ensures files[0] == StoredFile(basename + "-ca.pem", CaKeyAndCertPem)
    ensures files[1] == StoredFile(basename + "-ca.p12", CaKeyAndCertP12)
    ensures files[2] == StoredFile(basename + "-ca-cert.pem", CaCertPem)
    ensures files[3] == StoredFile(basename + "-ca-cert.cer", CaCertPem)
    ensures files[4] == StoredFile(basename + "-ca-cert.p12", CaCertP12)
    ensures files[5] == StoredFile(basename + "-dhparam.pem", DhParams)
    ensures forall i :: 0 <= i < |files| ==>
      |files[i].name| > |basename| + 1 && files[i].name[..|basename| + 1] == basename + "-"
  {
    var files := seq(6, i requires 0 <= i < 6 => StoredFile(basename + FileSuffixes[i], FileContents[i]));
    SuffixesDistinct();
    assert DistinctNames(files) by {
      forall i, j | 0 <= i < j < 6 ensures files[i].name != files[j].name {
        if files[i].name == files[j].name {
          PrefixCancel(basename, FileSuffixes[i], FileSuffixes[j]);
        }
      }
    }
    assert forall i :: 0 <= i < 6 ==> files[i].name[..|basename| + 1] == basename + "-" by {
      forall i | 0 <= i < 6 ensures files[i].name[..|basename| + 1] == basename + "-" {
        var x := FileSuffixes[i];
        assert x[0] == '-' && |x| > 1;
        assert files[i].name == basename + x;
        assert (basename + x)[..|basename| + 1] == basename + x[..1];
      }
    }
    files
  }

  /** The CA file `from_store` checks for and loads is the first file
      `create_store` writes. */
  function CaFileName(basename: string): (name: string)
    ensures name == StoreFileList(basename)[0].name
    ensures StoreFileList(basename)[0].content == CaKeyAndCertPem
  {
    basename + "-ca.pem"
  }

  /** The DH parameter file `from_store` loads is the last file
      `create_store` writes. */
  function DhParamFileName(basename: string): (name: string)
    ensures name == StoreFileList(basename)[5].name
    ensures StoreFileList(basename)[5].content == DhParams
  {
    basename + "-dhparam.pem"
  }

  /** `create_store`: organization and common name fall back to the basename
      when missing or empty; the CA certificate is self-signed with that
      subject; the store directory gets its six files. */
  function CreateStore(basename: string, organization: Option<string>,
                       commonName: Option<string>, serial: nat): (d: CreatedStore)
    ensures CommonName(d.ca) == Some(if commonName.Some? && commonName.value != "" then commonName.value else basename)
    ensures Organization(d.ca) == Some(if organization.Some? && organization.value != "" then organization.value else basename)
    ensures d.ca.isCa && d.ca.issuer == d.ca.subject
    ensures d.files == StoreFileList(basename)
  {
    CreatedStore(CreateCa(OrDefault(organization, basename), OrDefault(commonName, basename), serial),
                 StoreFileList(basename))
  }

  /** The `.cer` copy holds the same PEM bytes as the `-ca-cert.pem` file. */
  lemma CerMirrorsPem(basename: string, organization: Option<string>, commonName: Option<string>, serial: nat)
    ensures var files := CreateStore(basename, organization, commonName, serial).files;
      ContentOf(files, basename + "-ca-cert.cer") == ContentOf(files, basename + "-ca-cert.pem") == Some(CaCertPem)
  {
    var files := CreateStore(basename, organization, commonName, serial).files;
    ContentOfDistinct(files, 2);
    ContentOfDistinct(files, 3);
  }

  /** The two files `from_store` opens are among those `create_store` wrote:
      the key-plus-certificate PEM and the DH parameters. */
  lemma FromStoreFindsCreatedFiles(basename: string, organization: Option<string>, commonName: Option<string>, serial: nat)
    ensures var files := CreateStore(basename, organization, commonName, serial).files;
      ContentOf(files, CaFileName(basename)) == Some(CaKeyAndCertPem)
      && ContentOf(files, DhParamFileName(basename)) == Some(DhParams)
  {
    var files := CreateStore(basename, organization, commonName, serial).files;
    ContentOfDistinct(files, 0);
    ContentOfDistinct(files, 5);
  }

  /** `f"{basename}-ca-cert.{ext}"` is the basename followed by the suffix
      `full` the extension completes. */
  lemma ServedName(basename: string, ext: string, full: string)
    requires full == "-ca-cert." + ext
    ensures basename + "-ca-cert." + ext == basename + full
  {
  }

  /** The onboarding app serves `{basename}-ca-cert.{ext}`; for each of its
      three formats that is a file `create_store` wrote, `.pem` and `.cer`
      with the PEM certificate and `.p12` with the PKCS#12 certificate. */
  lemma OnboardingServesCreatedFiles(basename: string, organization: Option<string>, commonName: Option<string>, serial: nat)
    ensures var files := CreateStore(basename, organization, commonName, serial).files;
      && ContentOf(files, basename + "-ca-cert." + "pem") == Some(CaCertPem)
      && ContentOf(files, basename + "-ca-cert." + "cer") == Some(CaCertPem)
      && ContentOf(files, basename + "-ca-cert." + "p12") == Some(CaCertP12)
  {
    var files := StoreFileList(basename);
    ServedName(basename, "pem", "-ca-cert.pem");
    ServedName(basename, "cer", "-ca-cert.cer");
    ServedName(basename, "p12", "-ca-cert.p12");
    ContentOfDistinct(files, 2);
    ContentOfDistinct(files, 3);
    ContentOfDistinct(files, 4);
  }

  /** Why `from_files` raises: the CA file cannot be read, it holds no
      private key that loads with the passphrase, the DH parameter file
      cannot be opened, or the CA file holds no certificate. */
  datatype LoadError = CaFileUnreadable | NoPrivateKey | DhParamsUnreadable | NoCertificateInCaFile

  /** `from_files` followed by `CertStore.__init__`. The four steps happen
      in order (reading the CA file, private key, DH parameters,
      certificates) and the first that fails is the error. On success the CA is the first certificate of the
      CA file, the file doubles as chain file exactly when it holds more
      than one certificate, and the default chain is always the file's whole
      certificate list. `caReadable` is whether the CA file can be read,
      `key` is the private key parsed from the CA file
      (`None` when parsing raises), `dhReadable` whether the DH parameter
      file opens (a missing one is written first, so only an unreadable one
      fails), and `pemCerts` the certificates parsed from the CA file (the
      same on both reads). */
  function FromFiles(caFile: string, caReadable: bool, key: Option<KeyId>, dhReadable: bool,
                     pemCerts: seq<Cert>): (r: Result<Store, LoadError>)
    ensures r.Failure? <==> !caReadable || key.None? || !dhReadable || |pemCerts| == 0
    ensures !caReadable ==> r == Failure(CaFileUnreadable)
    ensures caReadable && key.None? ==> r == Failure(NoPrivateKey)
    ensures caReadable && key.Some? && !dhReadable ==> r == Failure(DhParamsUnreadable)
    ensures r == Failure(NoCertificateInCaFile) <==> caReadable && key.Some? && dhReadable && |pemCerts| == 0
    ensures r.Success? ==>
      && caReadable && key.Some?
      && Valid(r.value) && r.value.certs == map[] && r.value.expireQueue == []
      && r.value.defaultCa == pemCerts[0] && r.value.defaultKey == key.value
      && r.value.defaultChainCerts == pemCerts
      && (r.value.defaultChainFile.Some? <==> |pemCerts| > 1)
      && (r.value.defaultChainFile.Some? ==> r.value.defaultChainFile.value == caFile)
  {
    if !caReadable then Failure(CaFileUnreadable)
    else if key.None? then Failure(NoPrivateKey)
    else if !dhReadable then Failure(DhParamsUnreadable)
    else if |pemCerts| == 0 then Failure(NoCertificateInCaFile)
    else
      var chainFile := if |pemCerts| > 1 then Some(caFile) else None;
      Success(NewStore(key.value, pemCerts[0], chainFile, pemCerts))
  }
}

=== FILE: wrappers.dfy ===
/** Failure-carrying result types shared by the certificate store and the
    HTTP/3 translator. */
module Wrappers {

  /** A value that may be absent (Python's `None`). */
  datatype Option<+T> = None | Some(value: T)

  /** The outcome of an operation that may raise. */
  datatype Result<+T, +E> = Success(value: T) | Failure(error: E)
}
